=== FILE: README.md ===
# MeetingMind backend core, modelled in Dafny

MeetingMind is a Flask backend that records meetings: a Socket.IO
connection streams audio frames into a per-session queue that a transcription
worker drains; the transcript is stored on a meeting record, summarized by a
chat model, and can be exported as a DOCX report. Beside that it keeps a
notebook feature — uploaded files are cut into overlapping text windows
("chunks") with embeddings, and a chat endpoint answers questions from the
best-matching chunks — plus user accounts and day-by-day reminders.

This project models the sequential, self-contained part of that backend as
pure Dafny functions over immutable data, and proves what the code promises:

- `Socket` — the `audio_queues` registry as a map from session id to a FIFO
  of items (`Some(payload)` or the end sentinel `None`), the 5-byte frame
  header, and the four socket handlers, with a trace semantics (`Run`) over
  which FIFO order is proved.
- `Meetings` — the meeting store (records keyed by sid next to the chunk
  collection): get-or-create, transcript append, summary save, the
  newest-first listing, `to_dict`, and the delete cascade of both the service
  and the HTTP route. `Valid` (records keyed by their sid; `ended_at` set
  exactly when completed) is preserved by every operation.
- `Files` and `Chunks` — the sliding-window splitter (windows of 500 every
  400 characters), proved equal to a reference definition, plus upload
  validation and delete-with-chunks.
- `Notebook` and `Ordering` — ranking scored chunks by a stable descending
  sort, Python's `xs[:top_k]`, and the context/prompt of the notebook chat.
- `Reply` and `Summarize` — the code-fence clean-up of the summarizer reply
  and the two summarize routes.
- `Report` — the section layout of the DOCX export, as a list of
  Heading/Paragraph/Bullet elements, and what a reader finds in it.
- `Users`, `Reminders` — account creation with unique names and emails, and
  the reminder day query.
- `Text` and `Common` — Python's `str.strip` (Unicode whitespace),
  `join`, `split`, `replace`, truthiness of optional strings, and HTTP-style
  outcomes `Ok(code, value)` / `Fail(code, error)`.

External services are parameters: the embedding function, the similarity
measure, the chat model, the JSON parser, the password hash, id generators
and clocks. Timestamps are integers.

Three consequences of the socket handlers as written are kept in the model:
a second `start_streaming` rebinds the session to a fresh empty queue, so the
items already queued can no longer be reached through `audio_queues`; frames
arriving after `end_meeting` are queued behind the sentinel;
`disconnect` removes the entry without enqueuing the sentinel.

## Model

Source paths are relative to the repository's root directory.

| member | source | states |
|---|---|---|
| Socket.Decode | meetingmind_ai_backend/app/sockets/meeting_socket.py:37-38 | a frame carries audio exactly when it is longer than the 5-byte header; the payload is the frame minus that header, `len - 5` bytes long |
| Socket.StartStreaming | meetingmind_ai_backend/app/sockets/meeting_socket.py:22 | the session is bound to an empty queue, whatever it held before; every other session keeps its queue |
| Socket.AudioData | meetingmind_ai_backend/app/sockets/meeting_socket.py:34-38 | a frame for an unknown session or of at most 5 bytes leaves the whole map unchanged; otherwise the payload goes to the back of that session's queue and no other queue changes |
| Socket.EndMeeting | meetingmind_ai_backend/app/sockets/meeting_socket.py:40-44 | exactly one sentinel is appended for a known session; an unknown session is a no-op |
| Socket.Disconnect | meetingmind_ai_backend/app/sockets/meeting_socket.py:46-48 | the session's entry is removed if present and every other entry is untouched |
| Socket.QueueIsFifo | meetingmind_ai_backend/app/sockets/meeting_socket.py:34-44 | while a session is neither restarted nor disconnected, its queue grows by exactly the accepted payloads and sentinels addressed to it, in call order |
| Socket.StartedQueueHoldsTrace | meetingmind_ai_backend/app/sockets/meeting_socket.py:22-44 | after a start, the queue holds exactly what the later events enqueued for that session |
| Socket.FrameAfterEndIsQueued | meetingmind_ai_backend/app/sockets/meeting_socket.py:37-44 | nothing checks for the sentinel: a frame after `end_meeting` lands behind it |
| Socket.RestartDropsPending | meetingmind_ai_backend/app/sockets/meeting_socket.py:22 | a repeated start empties a non-empty queue, so start is not idempotent at queue level (repeating it on an emptied queue is) |
| Socket.OnlyStartRegisters | meetingmind_ai_backend/app/sockets/meeting_socket.py:11-48 | no event other than a start for the session ever creates its entry |
| Socket.OnStartStreaming | meetingmind_ai_backend/app/sockets/meeting_socket.py:11-22 | a start binds a fresh queue and makes sure the session has a meeting record: an existing record and the whole store stay as they were; otherwise exactly one record is added under the sid, in progress, titled "Untitled Meeting", created now, with no end time, transcript or summary and empty lists, owned by the connection's user id (`default_user` if none); all other records and the chunks are untouched; the store invariant is kept |
| Socket.StartTwiceKeepsOneRecord | meetingmind_ai_backend/app/sockets/meeting_socket.py:16-19 | starting twice leaves the same store as starting once |
| Meetings.NewMeeting | meetingmind_ai_backend/app/models/meeting_model.py:9-24 | a fresh record has the given sid and user id, no end time and no transcript, is consistent (in progress, not ended), and its `to_dict` view is titled "Untitled Meeting", "in_progress", created now, with no summary and empty lists |
| Meetings.GetOrCreate | meetingmind_ai_backend/app/services/meeting_service.py:6-19 | an existing record is returned unchanged (user id not overwritten); otherwise exactly one record keyed by the sid is added, titled "Untitled Meeting", "in_progress", with no end time, transcript or summary and empty action-item and decision lists |
| Meetings.GetOrCreateIdempotent | meetingmind_ai_backend/app/services/meeting_service.py:11-19 | a second call returns what the first stored and changes nothing, whatever user id it passes |
| Meetings.AppendTranscript | meetingmind_ai_backend/app/services/meeting_service.py:21-32 | an unknown sid changes nothing; a falsy transcript is replaced by the text, a non-empty one gets a newline and the text; nothing else changes |
| Meetings.AppendAllExtends | meetingmind_ai_backend/app/services/meeting_service.py:28-29 | appending fragments to a non-empty transcript adds a newline and the fragments joined by newlines |
| Meetings.AppendAllJoins | meetingmind_ai_backend/app/services/meeting_service.py:28-31 | fragments appended to an empty transcript, the first non-empty, end up joined by single newlines with no leading newline |
| Meetings.SaveSummary | meetingmind_ai_backend/app/services/meeting_service.py:34-52 | status "completed" and the end time are set together; the summary is stored, missing lists become `[]`, a non-empty transcript is never overwritten, and no other field changes; an unknown sid changes nothing |
| Meetings.UserMeetings | meetingmind_ai_backend/app/services/meeting_service.py:54-58 | exactly the user's meetings, each once, newest `created_at` first |
| Meetings.DeleteBySid | meetingmind_ai_backend/app/services/meeting_service.py:59-66 | false and no change for an unknown sid; otherwise true, the meeting is gone, and the chunks left are exactly those at the positions whose chunk is filed under another folder, in collection order, so each survives as often as it occurred |
| Chunks.KeepCounts | meetingmind_ai_backend/app/services/meeting_service.py:65 | filtering the chunk collection keeps every matching chunk exactly as often as it occurred and drops every other one |
| Chunks.KeepInOrder | meetingmind_ai_backend/app/services/meeting_service.py:65 | filtering the chunk collection keeps exactly the chunks at the passing positions, in increasing position order |
| Meetings.CreateThenDelete | meetingmind_ai_backend/app/services/meeting_service.py:59-66 | deleting a just-created meeting with no chunks restores the store |
| Meetings.ToDictOmitsHidden | meetingmind_ai_backend/app/models/meeting_model.py:34-43 | two records have the same `to_dict` view if and only if they differ only in user id, end time and transcript |
| Meetings.ToDict | meetingmind_ai_backend/app/models/meeting_model.py:34-43 | the view carries the record's sid as its id and a status among "in_progress", "completed" and "error", "completed" exactly for a completed record; Meetings.ToDictOmitsHidden states which fields it shows |
| Meetings.ListMeetings | meetingmind_ai_backend/app/routes/meeting_routes.py:8-25 | 400 "Missing user_id parameter" without a user id; otherwise 200 with the view of every meeting of that user and no other, each once, newest first |
| Meetings.DeleteMeeting | meetingmind_ai_backend/app/routes/meeting_routes.py:27-48 | 404 "Meeting not found" and no change for an unknown sid, 200 "Meeting deleted successfully" otherwise |
| Meetings.RouteMatchesService | meetingmind_ai_backend/app/routes/meeting_routes.py:34-45 | the route removes the same meeting and chunks as the service, and succeeds exactly when the service reports a deletion |
| Files.Slice | meetingmind_ai_backend/app/services/file_service.py:26 | Python's `text[start:end]`: clipped to the text, at most `end - start` characters, each equal to the text's character at the same offset |
| Files.WindowCount | meetingmind_ai_backend/app/services/file_service.py:24-34 | the number of windows is the least `k` with `k * step >= len(text)`, that is `ceil(len(text) / step)` |
| Files.SplitIntoChunks | meetingmind_ai_backend/app/services/file_service.py:17-36 | empty text gives no chunks whatever the sizes; otherwise, with a positive step `size - overlap`, the loop yields exactly `ceil(len / step)` entries, the i-th being index `i` and `text[i*step : i*step+size].strip()`, where a negative slice end counts from the back of the text as in Python |
| Files.SlideWindows | meetingmind_ai_backend/app/services/file_service.py:24-34 | on non-empty text with a positive step, the `while start < len(text)` loop yields `ceil(len / step)` entries, the i-th being the stripped window starting at `i * step` |
| Files.WindowsShape | meetingmind_ai_backend/app/services/file_service.py:24-34 | empty text gives no chunks and only empty text does; indices are 0..n-1; no chunk is longer than the chunk size |
| Files.WindowsCover | meetingmind_ai_backend/app/services/file_service.py:24-34 | with `0 <= overlap < size`, every character lies in the unstripped window numbered `p / step`, which the loop produces |
| Files.UploadFile | meetingmind_ai_backend/app/services/file_service.py:46-87 | a falsy argument gives 400 and stores nothing; otherwise 201, the file is stored under its new id, and one chunk per splitter window follows the existing chunks, carrying the new id, the window's index and text and its embedding; `total_chunks` is the window count |
| Files.DeleteFile | meetingmind_ai_backend/app/services/file_service.py:104-115 | 404 for an unknown id; otherwise the file and exactly the chunks with its id are removed; the chunks left are those at the positions whose chunk belongs to another file, in collection order, each as often as it occurred |
| Files.UploadThenDelete | meetingmind_ai_backend/app/services/file_service.py:46-115 | deleting a just-uploaded file restores both collections |
| Notebook.Rank | meetingmind_ai_backend/app/controllers/chat_notebook_controller.py:47 | the ranking is a permutation of the scored pairs with scores non-increasing |
| Notebook.RankStable | meetingmind_ai_backend/app/controllers/chat_notebook_controller.py:47 | the sort is stable: the pairs with any one score keep their scoring order |
| Notebook.TakePrefix | meetingmind_ai_backend/app/controllers/chat_notebook_controller.py:48 | the result is a prefix of `xs`: of length `min(k, len(xs))` for `k >= 0`, and for negative `k` all but the last `min(-k, len(xs))` elements |
| Notebook.SelectIsBest | meetingmind_ai_backend/app/controllers/chat_notebook_controller.py:47-48 | for `top_k >= 0` the selection has `min(top_k, n)` entries; scores are non-increasing; it is a sub-multiset of the scored pairs; it and the rest make up the ranking; no entry left out scores above a selected one |
| Notebook.LargeTopKKeepsAll | meetingmind_ai_backend/app/controllers/chat_notebook_controller.py:48 | with `top_k` at least the number of pairs every pair is selected |
| Notebook.ScoreAll | meetingmind_ai_backend/app/controllers/chat_notebook_controller.py:41-44 | one pair per chunk in store order: its similarity to the question and its text |
| Notebook.ScoredComeFromFolder | meetingmind_ai_backend/app/controllers/chat_notebook_controller.py:35-44 | every scored pair comes from a chunk of the requested user and folder |
| Notebook.FolderIgnoresOthers | meetingmind_ai_backend/app/controllers/chat_notebook_controller.py:35-38 | chunks of other users or folders, stored before or after, are not among the chunks the chat scores |
| Notebook.OtherFoldersIgnored | meetingmind_ai_backend/app/controllers/chat_notebook_controller.py:35-51 | adding chunks of other users or folders, before or after, leaves the context unchanged |
| Notebook.ContextSplitsBack | meetingmind_ai_backend/app/controllers/chat_notebook_controller.py:51 | the context is the selected texts in rank order separated by blank lines: splitting it there gives them back when none holds a blank line or ends with a line break, as no stripped window does |
| Notebook.Context | meetingmind_ai_backend/app/controllers/chat_notebook_controller.py:35-51 | the context is empty for `top_k` 0 and for a folder with no chunk of that user; Notebook.ContextSplitsBack and Notebook.OtherFoldersIgnored state what it holds otherwise |
| Notebook.ChatBotNotebook | meetingmind_ai_backend/app/controllers/chat_notebook_controller.py:27-72 | 400 "Missing required fields" exactly when the user id, folder id or question is missing or empty; otherwise 200 with the chat model's answer to "Context: ...\n\nQuestion: ..." |
| Notebook.RejectionUsesNoService | meetingmind_ai_backend/app/controllers/chat_notebook_controller.py:28-32 | a rejected request does not depend on the embedding, similarity or chat services |
| Reply.StripFences | meetingmind_ai_backend/app/services/openai_service.py:26-28 | the result never has surrounding whitespace; a reply not opening with a fence is only stripped |
| Reply.SummarizeTranscript | meetingmind_ai_backend/app/services/openai_service.py:20-30 | a reply that does not open with a fence is parsed after stripping alone |
| Reply.SummarizeFencedJson | meetingmind_ai_backend/app/services/openai_service.py:20-30 | a reply of the requested shape (a "```json" line, a trimmed backtick-free object, a closing "```") hands the parser exactly that object |
| Reply.UnfencedReply | meetingmind_ai_backend/app/services/openai_service.py:26-27 | whitespace around a fence-free text is all that is removed |
| Reply.FencedJsonRoundTrip | meetingmind_ai_backend/app/services/openai_service.py:27-28 | "```json\n" + body + "\n```", for a trimmed body with no backtick, gives back exactly the body |
| Reply.FencedStrip | meetingmind_ai_backend/app/services/openai_service.py:26-28 | a reply that is already stripped and opens with a fence loses every "```json", then every "```", and is stripped again |
| Reply.StrayTagSurvives | meetingmind_ai_backend/app/services/openai_service.py:28 | removing "```json" before "```" does not remove every `json` tag: "```js```on" comes out as "json" |
| Summarize.Shape | meetingmind_ai_backend/app/routes/summarize_routes.py:14-19 | a missing summary becomes "", missing lists become `[]`, present values pass through, and the transcript is echoed |
| Summarize.SummarizeSid | meetingmind_ai_backend/app/routes/summarize_routes.py:7-19 | 400 "No transcript" exactly when the session has no fragments or only one empty one (an unknown sid has none); otherwise the newline-joined fragments are summarized and echoed |
| Summarize.SidRefusalIgnoresSummarizer | meetingmind_ai_backend/app/routes/summarize_routes.py:9-13 | a refused request does not depend on the summarizer |
| Summarize.SidTranscriptSplitsBack | meetingmind_ai_backend/app/routes/summarize_routes.py:9-18 | the echoed transcript splits back into the session's fragments when none holds a newline |
| Summarize.SummarizePost | meetingmind_ai_backend/app/routes/summarize_routes.py:21-34 | 400 "No transcript" exactly when the posted transcript is missing or whitespace only; otherwise the stripped text is summarized and echoed |
| Summarize.PostIgnoresPadding | meetingmind_ai_backend/app/routes/summarize_routes.py:24-33 | whitespace around the posted transcript changes nothing: the summarizer sees, and the response echoes, the text inside it |
| Summarize.PostRefusalIgnoresSummarizer | meetingmind_ai_backend/app/routes/summarize_routes.py:24-28 | a refused post does not depend on the summarizer |
| Report.TitleOf | meetingmind_ai_backend/app/routes/report_routes.py:11 | the title is the given one, or "Meeting Report" when absent or empty |
| Report.ExportDocx | meetingmind_ai_backend/app/routes/report_routes.py:9-39 | 400 "No content to export" exactly when summary and transcript are blank and both lists are empty; otherwise the document opens with the title heading and has at least one section |
| Report.Layout | meetingmind_ai_backend/app/routes/report_routes.py:20-39 | the document opens with the title as a level-1 heading and has one element for the title, two per present text section and one plus one per item for each non-empty list; Report.LayoutReadsBack and Report.LayoutBlocks state its contents and order |
| Report.BulletTexts | meetingmind_ai_backend/app/routes/report_routes.py:27-35 | a list becomes one bullet per element, in order, and nothing else |
| Report.ReportReadsBack | meetingmind_ai_backend/app/routes/report_routes.py:17-39 | in a successful report the title is the only level-1 heading; the section headings appear in the order Summary, Action Items, Key Decisions, Full Transcript, each exactly when its content is there, and at least one does; the bullets are the action items then the decisions; the paragraphs are the unstripped summary and transcript |
| Report.LayoutReadsBack | meetingmind_ai_backend/app/routes/report_routes.py:20-39 | the same reading of the layout for any content with at least one section |
| Report.ReportBlocks | meetingmind_ai_backend/app/routes/report_routes.py:27-39 | in a successful report each piece of content sits directly under its own heading, up to the end or the next heading: the summary paragraph under "Summary", one bullet per action item under "Action Items", one per decision under "Key Decisions", the transcript paragraph under "Full Transcript" |
| Report.LayoutBlocks | meetingmind_ai_backend/app/routes/report_routes.py:27-39 | the same placement of each section's content directly under its heading, for any content |
| Users.CreateUser | meetingmind_ai_backend/app/services/user_service.py:6-21 | a taken name gives 400 "Username already exists", else a taken email 400 "Email already exists", neither changing the store; otherwise 201, and exactly one account is added, holding `hash(password)`; distinct names and emails are preserved |
| Users.GetUser | meetingmind_ai_backend/app/services/user_service.py:23-33 | 404 "User not found" exactly for an unknown id; otherwise the account's id, name, email and creation time |
| Users.CreateThenGet | meetingmind_ai_backend/app/services/user_service.py:6-33 | a created account is found under the returned id with its name and email |
| Users.CreateTwiceRefused | meetingmind_ai_backend/app/services/user_service.py:7-8 | repeating a successful creation is refused by name and changes nothing |
| Reminders.DayWindow | meetingmind_ai_backend/app/controllers/reminder_controller.py:19-20 | the inclusive bounds `time.min`..`time.max` of a date hold exactly the instants of that calendar day |
| Reminders.CreateReminder | meetingmind_ai_backend/app/controllers/reminder_controller.py:6-15 | exactly one not-done reminder is added under a fresh id; the response echoes the id and title with 201 |
| Reminders.GetByDay | meetingmind_ai_backend/app/controllers/reminder_controller.py:17-38 | exactly the user's reminders starting within the day, each once, earliest start first |
| Reminders.DeleteReminder | meetingmind_ai_backend/app/controllers/reminder_controller.py:40-46 | 404 "Reminder not found" and no change for an unknown id; otherwise exactly that reminder is removed |
| Reminders.CreateThenDelete | meetingmind_ai_backend/app/controllers/reminder_controller.py:6-46 | deleting a just-created reminder restores the store, and a second delete is refused |
| Text.StripEmpty | meetingmind_ai_backend/app/routes/report_routes.py:17 | `s.strip()` is empty exactly when `s` is whitespace only |
| Text.StripIdempotent | meetingmind_ai_backend/app/routes/summarize_routes.py:24 | stripping twice is stripping once |
| Text.JoinIsEmpty | meetingmind_ai_backend/app/routes/summarize_routes.py:9-10 | a join with a non-empty separator is empty exactly for no parts or one empty part |
| Text.SplitJoin | meetingmind_ai_backend/app/routes/summarize_routes.py:9 | splitting a join at its separator gives back the parts when no occurrence of the separator starts inside a part, even one running on into the next separator |
| Text.BlankLineFree | meetingmind_ai_backend/app/controllers/chat_notebook_controller.py:51 | a text with no blank line that does not end with a line break cannot be cut by the blank-line separator that follows it |
| Ordering.SortByStable | meetingmind_ai_backend/app/controllers/chat_notebook_controller.py:47 | the sort keeps the relative order of elements with equal keys |

## Left out

- Threads, the asyncio event loop, the Speechmatics worker that drains the queues, and the emitted acknowledgements: these are concurrency and an external streaming service. The handlers are modelled as sequential functions.
- The OpenAI chat and embedding calls and `json.loads` are foreign calls. They are the parameters `complete`, `embed` and `parse`. The prompt texts sent to the summarizer are not modelled. For the notebook chat, only the user message `Context: …\n\nQuestion: …` is passed to `complete`; the model name `gpt-4.1-mini`, the fixed system message, `max_tokens=200` and `temperature=0.2` (chat_notebook_controller.py:54-68) are request settings of the foreign call and are not modelled.
- `cosine_similarity` is floating point and divides by zero for a zero-norm vector. The similarity is a parameter returning an ordered number (`real`), so NaN scores are not modelled.
- Clocks, `datetime` and ISO rendering: timestamps are integers (microseconds for reminders), and `to_dict` reports the creation time as that number rather than as ISO text.
- MongoDB exceptions, exceptions raised by the foreign calls (embedding, chat completion, JSON parsing), and the 500 paths of the routes. Upload stores the file record before it asks for any embedding (file_service.py:58 before :69), so a failing embedding call leaves a file with no chunks behind; the model's upload succeeds whole or not at all.
- Connection setup, authentication (OAuth, JWT), the routers that only forward to controllers, and the presence-check CRUD controllers for folders and chunks.
- DOCX rendering and `send_file`: the report is the list of its elements. `str(item)` on non-string list items is not modelled, because list items are strings here.
- A JSON `null` value in a request or in the parsed summary is treated like a missing key. `request.get_json()` returning no body is not modelled.
- The `top_k` default of 5 is not modelled: `top_k` is always passed explicitly.
- Files.SplitIntoChunks: requires `overlap < chunk_size` for non-empty text only. On non-empty text with `chunk_size - overlap <= 0` the source loop never advances and does not terminate; empty text, and zero or negative chunk sizes with a positive step, are modelled. The source only calls the splitter with 500 and 100.
- Reply.StripFences: it does not promise that no `json` tag remains after the clean-up, because that does not hold. Reply.StrayTagSurvives shows a reply where the tag survives.
- Meetings.UserMeetings: promises nothing about the order of meetings with equal creation times, because the store leaves it unspecified. Reminders.GetByDay likewise for equal start times.
- Meetings.AppendAllJoins: requires the first fragment to be non-empty, because an empty first fragment leaves a falsy transcript that the next fragment replaces.
- The queue objects themselves: the worker started by `start_streaming` keeps the queue object it was handed (meeting_socket.py:28). After a second start it goes on draining the old queue, a second worker serves the new one, and `end_meeting` sends its sentinel only to the new queue, so the earlier worker is never sent one. The model keeps only the map from session id to queue contents.
- `chunk_model.py` defines no `Chunk` document, only a dict builder (`chunk_schema`) that keeps the user, folder and file ids as ObjectId, yet the services and controllers import `Chunk` from it. The model assumes a chunk document with the fields file_service.py:70-77 writes, holding the ids as strings compared by equality, so deleting a meeting's chunks by `folder_id=sid` matches the chunks filed under that sid.
- The reminder record class declares `remind_at` and `description`, but the controller reads and writes `remind_start`, `remind_end` and `location`. The model follows the controller's field set.
- Id generation (ObjectId and the session id) is a parameter. A fresh id is required to be unused, which the database guarantees.

=== FILE: chunks.dfy ===
/**
 * The retrieval chunk collection shared by file upload, meeting deletion
 * and notebook chat: one record per text window, tagged with its owner,
 * folder (or meeting sid) and file, and carrying an embedding vector.
 */
module Chunks {

  /** An embedding vector; only the embedding and similarity functions,
      both parameters of this model, look inside it. */
  datatype Vector = Vector(components: seq<real>)

  datatype Chunk = Chunk(
    userId: string,
    folderId: string,
    fileId: string,
    chunkIndex: int,
    text: string,
    embedding: Vector)

  /** The chunks satisfying `p`, in collection order: a query filter, or
      what a delete-by-filter leaves behind when `p` is the negated filter. */
  function Keep(cs: seq<Chunk>, p: Chunk -> bool): (r: seq<Chunk>)
    ensures forall c :: c in r <==> c in cs && p(c)
    ensures |r| <= |cs|
    decreases |cs|
  {
    if cs == [] then []
    else if p(cs[0]) then [cs[0]] + Keep(cs[1..], p)
    else Keep(cs[1..], p)
  }

  /** Filtering a concatenation filters each side. */
  lemma {:induction false} KeepAppend(a: seq<Chunk>, b: seq<Chunk>, p: Chunk -> bool)
    ensures Keep(a + b, p) == Keep(a, p) + Keep(b, p)
    decreases |a|
  {
    if a != [] {
      assert (a + b)[0] == a[0];
      assert (a + b)[1..] == a[1..] + b;
      KeepAppend(a[1..], b, p);
    } else {
      assert a + b == b;
    }
  }

  /** The positions of `cs` whose chunk passes `p`, in increasing order. */
  function Passing(cs: seq<Chunk>, p: Chunk -> bool): (idx: seq<nat>)
    ensures forall k | 0 <= k < |idx| :: idx[k] < |cs| && p(cs[idx[k]])
    ensures forall k, l | 0 <= k < l < |idx| :: idx[k] < idx[l]
    ensures forall i | 0 <= i < |cs| && p(cs[i]) :: i in idx
    decreases |cs|
  {
    if cs == [] then []
    else
      var n := |cs| - 1;
      Passing(cs[..n], p) + (if p(cs[n]) then [n] else [])
  }

  /** `r` lists the chunks of `cs` at the positions `idx`, in that order. */
  predicate Picks(r: seq<Chunk>, cs: seq<Chunk>, idx: seq<nat>) {
    |r| == |idx| && forall k | 0 <= k < |idx| :: idx[k] < |cs| && r[k] == cs[idx[k]]
  }

  /** Filtering keeps exactly the chunks at the passing positions, in
      collection order. */
  lemma {:induction false} KeepInOrder(cs: seq<Chunk>, p: Chunk -> bool)
    ensures Picks(Keep(cs, p), cs, Passing(cs, p))
    decreases |cs|
  {
    if cs != [] {
      var n := |cs| - 1;
      var init := cs[..n];
      assert cs == init + [cs[n]];
      KeepAppend(init, [cs[n]], p);
      KeepInOrder(init, p);
      assert Keep([cs[n]], p) == if p(cs[n]) then [cs[n]] else [] by {
        assert [cs[n]][1..] == [];
      }
    }
  }

  /** Every chunk that passes is kept as often as it occurs, and no other
      is kept. */
  lemma {:induction false} KeepCounts(cs: seq<Chunk>, p: Chunk -> bool)
    ensures forall c :: multiset(Keep(cs, p))[c] == if p(c) then multiset(cs)[c] else 0
    decreases |cs|
  {
    if cs != [] {
      KeepCounts(cs[1..], p);
      assert cs == [cs[0]] + cs[1..];
    }
  }

  /** A filter every chunk passes keeps the whole collection. */
  lemma {:induction false} KeepAll(cs: seq<Chunk>, p: Chunk -> bool)
    requires forall i | 0 <= i < |cs| :: p(cs[i])
    ensures Keep(cs, p) == cs
    decreases |cs|
  {
    if cs != [] {
      KeepAll(cs[1..], p);
      assert [cs[0]] + cs[1..] == cs;
    }
  }

  /** A filter no chunk passes keeps nothing. */
  lemma {:induction false} KeepNone(cs: seq<Chunk>, p: Chunk -> bool)
    requires forall i | 0 <= i < |cs| :: !p(cs[i])
    ensures Keep(cs, p) == []
    decreases |cs|
  {
    if cs != [] {
      KeepNone(cs[1..], p);
    }
  }
}

=== FILE: common.dfy ===
/**
 * Values shared by every part of the backend model: optional values (a
 * JSON key that may be absent, a query that may find nothing), the
 * (body, status) pair that a Flask route returns, and Python's notion of a
 * "truthy" optional string.
 */
module Common {

  datatype Option<+T> = None | Some(value: T) {

    /** `dict.get(key, default)`: the value when present, otherwise `default`. */
    function GetOr(default: T): T {
      match this
      case Some(v) => v
      case None => default
    }
  }

  /** What a route or controller hands back: a body with its HTTP status. */
  datatype Outcome<+T> = Ok(code: nat, value: T) | Fail(code: nat, error: string)

  const StatusOk: nat := 200
  const StatusCreated: nat := 201
  const StatusBadRequest: nat := 400
  const StatusNotFound: nat := 404

  /** Python truthiness of an optional string: `None` and `""` are falsy. */
  predicate Present(o: Option<string>) {
    o.Some? && o.value != ""
  }
}

=== FILE: files.dfy ===
/**
 * File upload for the notebook feature: the sliding-window text splitter,
 * upload validation with chunk bookkeeping, and delete-with-chunks.
 * The embedding service is the parameter `embed`.
 */
module Files {
  import opened Common
  import opened Text
  import opened Chunks

  /** The splitter's defaults: windows of 500 characters every 400. */
  const DefaultChunkSize: int := 500
  const DefaultOverlap: int := 100

  /** One entry of the splitter's output: `{"chunk_index", "text"}`. */
  datatype Window = Window(chunkIndex: nat, text: string)

  /** Python's `s[lo:hi]` for a non-negative start: a negative end counts
      from the back of the string (and stops at its front); the result is
      clipped to the string and empty when the bounds cross. */
  function Slice(s: string, lo: nat, hi: int): (r: string)
    ensures |r| <= |s|
    ensures lo <= hi ==> |r| <= hi - lo
    ensures forall k | 0 <= k < |r| :: lo + k < |s| && r[k] == s[lo + k]
    ensures lo < hi && lo < |s| ==> |r| == (if hi < |s| then hi else |s|) - lo
    ensures hi < 0 ==> |r| == (if lo < hi + |s| then hi + |s| - lo else 0)
  {
    var end := if hi >= 0 then hi else if hi + |s| >= 0 then hi + |s| else 0;
    if lo >= |s| || end <= lo then ""
    else s[lo..if end < |s| then end else |s|]
  }

  /** How many windows start below `length` when they start every `step`
      characters: the least `k` with `k * step >= length`. */
  function WindowCount(length: nat, step: int): (k: nat)
    requires step > 0
    ensures k * step >= length
    ensures k == 0 || (k - 1) * step < length
  {
    var k := (length + step - 1) / step;
    assert k * step > length - step;
    k
  }

  /** Where the `i`-th window starts. */
  function Offset(i: nat, step: int): int {
    i * step
  }

  /** The `i`-th window: `text[i*step : i*step+size].strip()`. */
  function WindowAt(text: string, i: nat, size: int, overlap: int): Window
    requires overlap < size
  {
    var lo := Offset(i, size - overlap);
    Window(i, Strip(Slice(text, lo, lo + size)))
  }

  /** The reference definition of the splitter's output. */
  function Windows(text: string, size: int, overlap: int): seq<Window>
    requires overlap < size
  {
    seq(WindowCount(|text|, size - overlap), i requires 0 <= i => WindowAt(text, i, size, overlap))
  }

  /** `slipt_file_to_chunk`: the loop of the source, proved to produce the
      reference windows. On an empty text the loop never runs; on any
      other it only terminates when the step `chunkSize - overlap` is
      positive, hence the precondition. */
  method SplitIntoChunks(text: string, chunkSize: int, overlap: int) returns (chunks: seq<Window>)
    requires text == "" || overlap < chunkSize
    ensures text == "" ==> chunks == []
    ensures overlap < chunkSize ==>
      && |chunks| == WindowCount(|text|, chunkSize - overlap)
      && forall i | 0 <= i < |chunks| :: chunks[i] == WindowAt(text, i, chunkSize, overlap)
  {
    if text == "" {
      // `start < len(text)` fails at once, whatever the step.
      return [];
    }
    chunks := SlideWindows(text, chunkSize, overlap);
  }

  /** The loop of `slipt_file_to_chunk` on a non-empty text. */
  method SlideWindows(text: string, chunkSize: int, overlap: int) returns (chunks: seq<Window>)
    requires text != "" && overlap < chunkSize
    ensures |chunks| == WindowCount(|text|, chunkSize - overlap)
    ensures forall i | 0 <= i < |chunks| :: chunks[i] == WindowAt(text, i, chunkSize, overlap)
  {
    var step := chunkSize - overlap;
    chunks := [];
    var start: nat := 0;
    var index: nat := 0;
    var textLength := |text|;
    while start < textLength
      invariant start == Offset(index, step)
      invariant index == 0 || start - step < textLength
      invariant |chunks| == index
      invariant forall i | 0 <= i < index :: chunks[i] == WindowAt(text, i, chunkSize, overlap)
      decreases textLength - start
    {
      var end := start + chunkSize;
      var chunkText := Slice(text, start, end);
      WindowAtStart(text, chunkSize, overlap, index, start);
      AppendWindow(text, chunkSize, overlap, chunks, Window(index, Strip(chunkText)));
      chunks := chunks + [Window(index, Strip(chunkText))];
      OffsetStep(index, step);
      index := index + 1;
      start := start + step;
    }
    LoopCount(textLength, step, index, start);
  }

  lemma AppendWindow(text: string, size: int, overlap: int, ws: seq<Window>, w: Window)
    requires overlap < size
    requires forall i | 0 <= i < |ws| :: ws[i] == WindowAt(text, i, size, overlap)
    requires w == WindowAt(text, |ws|, size, overlap)
    ensures forall i | 0 <= i < |ws| + 1 :: (ws + [w])[i] == WindowAt(text, i, size, overlap)
  {
  }

  lemma OffsetStep(i: nat, step: int)
    ensures Offset(i + 1, step) == Offset(i, step) + step
  {
  }

  /** The window the loop builds from `start` is the reference window. */
  lemma WindowAtStart(text: string, size: int, overlap: int, index: nat, start: nat)
    requires overlap < size
    requires start == Offset(index, size - overlap)
    ensures Window(index, Strip(Slice(text, start, start + size))) == WindowAt(text, index, size, overlap)
  {
  }

  /** The loop stops after exactly `WindowCount` windows: the first start
      at or beyond the end, with the previous start still inside. */
  lemma LoopCount(length: nat, step: int, k: nat, start: int)
    requires step > 0
    requires start == Offset(k, step) && start >= length
    requires k == 0 || start - step < length
    ensures k == WindowCount(length, step)
  {
    var n := WindowCount(length, step);
    MulMono(k, n as int - 1, step);
    MulMono(n, k as int - 1, step);
    MulPred(k, step);
    MulPred(n, step);
  }

  /** Multiplying by a positive step keeps the order. */
  lemma MulMono(a: int, b: int, step: int)
    requires step > 0
    ensures a <= b ==> a * step <= b * step
  {
    if a <= b {
      assert b * step - a * step == (b - a) * step;
    }
  }

  lemma MulPred(k: int, step: int)
    ensures (k - 1) * step == k * step - step
  {
  }

  /** Windows are numbered 0..n-1, hold at most `size` characters, and an
      empty text has none. */
  lemma WindowsShape(text: string, size: int, overlap: int)
    requires 0 <= size && overlap < size
    ensures var ws := Windows(text, size, overlap);
      && (text == "" <==> ws == [])
      && forall i | 0 <= i < |ws| :: ws[i].chunkIndex == i && |ws[i].text| <= size
  {
  }

  /** With a non-negative overlap every character of the text lies inside
      the (unstripped) window numbered `p / step`. */
  lemma WindowsCover(text: string, size: int, overlap: int, p: nat)
    requires 0 <= overlap < size && p < |text|
    ensures var step := size - overlap;
      var i := p / step;
      && i < WindowCount(|text|, step)
      && WindowHolds(text, i * step, size, p)
  {
    var step := size - overlap;
    var i := p / step;
    DivBounds(p, step);
    CountAbove(|text|, step, i);
  }

  /** The unstripped window of `size` characters starting at `lo` contains
      position `p` of the text, holding there the character `text[p]`. */
  predicate WindowHolds(text: string, lo: int, size: int, p: nat) {
    && 0 <= lo <= p < lo + size
    && p < |text|
    && Slice(text, lo, lo + size)[p - lo] == text[p]
  }

  /** Euclidean division brackets its dividend. */
  lemma DivBounds(p: nat, step: int)
    requires step > 0
    ensures 0 <= (p / step) * step <= p < (p / step) * step + step
  {
  }

  /** A window starting below the end is one the loop produces. */
  lemma CountAbove(length: nat, step: int, i: nat)
    requires step > 0 && i * step < length
    ensures i < WindowCount(length, step)
  {
    MulMono(WindowCount(length, step), i, step);
  }

  // ------------------------------------------------------------- upload

  datatype FileRecord = FileRecord(userId: string, folderId: string, filename: string, fileType: string, size: int)

  /** The files collection and the chunk collection. */
  datatype FileDb = FileDb(files: map<string, FileRecord>, chunks: seq<Chunk>)

  /** The success body of an upload. */
  datatype Receipt = Receipt(fileId: string, filename: string, totalChunks: nat)

  /** `all([user_id, folder_id, filename, file_type, size, content])`. */
  predicate AllDetails(
    userId: Option<string>, folderId: Option<string>, filename: Option<string>,
    fileType: Option<string>, size: Option<int>, content: Option<string>)
  {
    Present(userId) && Present(folderId) && Present(filename) && Present(fileType)
    && size.Some? && size.value != 0 && Present(content)
  }

  /** The chunk records stored for the windows of one file. */
  function ChunkRecords(userId: string, folderId: string, fileId: string, ws: seq<Window>, embed: string -> Vector): seq<Chunk>
  {
    seq(|ws|, i requires 0 <= i < |ws| =>
      Chunk(userId, folderId, fileId, ws[i].chunkIndex, ws[i].text, embed(ws[i].text)))
  }

  /** `upload_file`: rejects a falsy argument with 400 and stores nothing;
      otherwise stores the file under the fresh id `newId` and one chunk per
      window of the default splitter, after the existing chunks. */
  function UploadFile(
    db: FileDb, userId: Option<string>, folderId: Option<string>, filename: Option<string>,
    fileType: Option<string>, size: Option<int>, content: Option<string>,
    newId: string, embed: string -> Vector): (r: (FileDb, Outcome<Receipt>))
    requires newId !in db.files
    ensures !AllDetails(userId, folderId, filename, fileType, size, content)
      ==> r == (db, Fail(StatusBadRequest, "All file details are required"))
    ensures AllDetails(userId, folderId, filename, fileType, size, content) ==>
      var n := WindowCount(|content.value|, DefaultChunkSize - DefaultOverlap);
      && r.1 == Ok(StatusCreated, Receipt(newId, filename.value, n))
      && r.0.files == db.files[newId := FileRecord(userId.value, folderId.value, filename.value, fileType.value, size.value)]
      && |r.0.chunks| == |db.chunks| + n
      && r.0.chunks[..|db.chunks|] == db.chunks
      && forall i | 0 <= i < n ::
           var c := r.0.chunks[|db.chunks| + i];
           && c.userId == userId.value && c.folderId == folderId.value && c.fileId == newId
           && c.chunkIndex == i
           && c.text == WindowAt(content.value, i, DefaultChunkSize, DefaultOverlap).text
           && c.embedding == embed(c.text)
  {
    if !AllDetails(userId, folderId, filename, fileType, size, content) then
      (db, Fail(StatusBadRequest, "All file details are required"))
    else
      var file := FileRecord(userId.value, folderId.value, filename.value, fileType.value, size.value);
      var ws := Windows(content.value, DefaultChunkSize, DefaultOverlap);
      var stored := ChunkRecords(userId.value, folderId.value, newId, ws, embed);
      (FileDb(db.files[newId := file], db.chunks + stored),
       Ok(StatusCreated, Receipt(newId, filename.value, |stored|)))
  }

  /** The chunks not cut from file `fileId`. */
  function OtherFile(fileId: string): Chunk -> bool {
    (c: Chunk) => c.fileId != fileId
  }

  /** `delete_file`: 404 for an unknown id; otherwise the file and exactly
      the chunks carrying its id are removed; the other chunks stay, in
      collection order. */
  function DeleteFile(db: FileDb, fileId: string): (r: (FileDb, Outcome<string>))
    ensures fileId !in db.files ==> r == (db, Fail(StatusNotFound, "File not found"))
    ensures fileId in db.files ==>
      && r.1 == Ok(StatusOk, "File deleted successfully")
      && r.0.files.Keys == db.files.Keys - {fileId}
      && (forall f | f in r.0.files :: r.0.files[f] == db.files[f])
      && (forall c :: c in r.0.chunks <==> c in db.chunks && c.fileId != fileId)
      && (forall c :: multiset(r.0.chunks)[c] == if c.fileId != fileId then multiset(db.chunks)[c] else 0)
      && Picks(r.0.chunks, db.chunks, Passing(db.chunks, OtherFile(fileId)))
  {
    if fileId !in db.files then
      (db, Fail(StatusNotFound, "File not found"))
    else
      KeepCounts(db.chunks, OtherFile(fileId));
      KeepInOrder(db.chunks, OtherFile(fileId));
      (FileDb(db.files - {fileId}, Keep(db.chunks, OtherFile(fileId))),
       Ok(StatusOk, "File deleted successfully"))
  }

  /** Deleting a file right after uploading it restores the store, provided
      no earlier chunk carried the new id. */
  lemma UploadThenDelete(
    db: FileDb, userId: Option<string>, folderId: Option<string>, filename: Option<string>,
    fileType: Option<string>, size: Option<int>, content: Option<string>,
    newId: string, embed: string -> Vector)
    requires newId !in db.files
    requires forall i | 0 <= i < |db.chunks| :: db.chunks[i].fileId != newId
    requires AllDetails(userId, folderId, filename, fileType, size, content)
    ensures DeleteFile(UploadFile(db, userId, folderId, filename, fileType, size, content, newId, embed).0, newId).0 == db
  {
    var file := FileRecord(userId.value, folderId.value, filename.value, fileType.value, size.value);
    var stored := ChunkRecords(userId.value, folderId.value, newId, Windows(content.value, DefaultChunkSize, DefaultOverlap), embed);
    var up := UploadFile(db, userId, folderId, filename, fileType, size, content, newId, embed).0;
    assert up == FileDb(db.files[newId := file], db.chunks + stored);
    DropUploaded(db.chunks, stored, newId);
    assert up.files - {newId} == db.files;
  }

  /** Removing the chunks of a new id from earlier chunks followed by that id's
      chunks leaves the earlier chunks. */
  lemma {:induction false} DropUploaded(before: seq<Chunk>, stored: seq<Chunk>, newId: string)
    requires forall i | 0 <= i < |before| :: before[i].fileId != newId
    requires forall i | 0 <= i < |stored| :: stored[i].fileId == newId
    ensures Keep(before + stored, OtherFile(newId)) == before
  {
    var p := OtherFile(newId);
    KeepAppend(before, stored, p);
    KeepAll(before, p);
    KeepNone(stored, p);
    assert before + [] == before;
  }
}

=== FILE: meetings.dfy ===
/**
 * The meeting store: one record per Socket.IO session id (the primary
 * key), kept next to the retrieval chunk collection, in which a meeting's
 * chunks carry its sid as their folder id. Timestamps are integers
 * supplied by the caller.
 */
module Meetings {
  import opened Common
  import opened Text
  import opened Ordering
  import opened Chunks
  import Reply

  datatype Status = InProgress | Completed | Errored {
    /** The value stored in the `status` field. */
    function Name(): string {
      match this
      case InProgress => "in_progress"
      case Completed => "completed"
      case Errored => "error"
    }
  }

  datatype Meeting = Meeting(
    sid: string,
    userId: string,
    title: string,
    status: Status,
    createdAt: int,
    endedAt: Option<int>,
    fullTranscript: Option<string>,
    summary: Option<string>,
    actionItems: seq<string>,
    keyDecisions: seq<string>)

  datatype Db = Db(meetings: map<string, Meeting>, chunks: seq<Chunk>)

  const DefaultTitle: string := "Untitled Meeting"

  /** A record created with only `sid` and `user_id` given: every other
      field takes its declared default. */
  function NewMeeting(sid: string, userId: string, now: int): (m: Meeting)
    ensures m.sid == sid && m.userId == userId && Consistent(m)
    ensures m.endedAt.None? && m.fullTranscript.None?
    ensures ToDict(m) == MeetingView(sid, "Untitled Meeting", "in_progress", now, None, [], [])
  {
    Meeting(sid, userId, DefaultTitle, InProgress, now, None, None, None, [], [])
  }

  /** Every record sits under its own sid. */
  predicate Keyed(db: Db) {
    forall k | k in db.meetings :: db.meetings[k].sid == k
  }

  /** A record has an end time exactly when it is completed. */
  predicate Consistent(m: Meeting) {
    m.endedAt.Some? <==> m.status == Completed
  }

  /** The store invariant every operation keeps. */
  predicate Valid(db: Db) {
    Keyed(db) && forall k | k in db.meetings :: Consistent(db.meetings[k])
  }

  /** `get_or_create_meeting`: an existing record is returned as it is
      (its user id is not overwritten); otherwise a fresh in-progress record
      is stored under `sid` and returned. */
  function GetOrCreate(db: Db, sid: string, userId: string, now: int): (r: (Db, Meeting))
    ensures sid in db.meetings ==> r == (db, db.meetings[sid])
    ensures sid !in db.meetings ==>
      && r.0 == Db(db.meetings[sid := r.1], db.chunks)
      && r.1.sid == sid && r.1.userId == userId && r.1.createdAt == now
      && r.1.title == "Untitled Meeting" && r.1.status.Name() == "in_progress"
      && r.1.endedAt.None? && r.1.fullTranscript.None? && r.1.summary.None?
      && r.1.actionItems == [] && r.1.keyDecisions == []
    ensures r.0.meetings.Keys == db.meetings.Keys + {sid}
    ensures Valid(db) ==> Valid(r.0) && r.1.sid == sid
  {
    if sid in db.meetings then (db, db.meetings[sid])
    else
      var m := NewMeeting(sid, userId, now);
      (Db(db.meetings[sid := m], db.chunks), m)
  }

  /** A second call finds what the first one stored, whatever user id and
      time it passes. */
  lemma GetOrCreateIdempotent(db: Db, sid: string, u1: string, u2: string, t1: int, t2: int)
    ensures var (db1, m1) := GetOrCreate(db, sid, u1, t1);
      GetOrCreate(db1, sid, u2, t2) == (db1, m1)
  {
  }

  /** The transcript after appending `text` to `current`: a falsy transcript
      is replaced, a non-empty one gets a newline and the text. */
  function Appended(current: Option<string>, text: string): string {
    if Present(current) then current.value + "\n" + text else text
  }

  /** `append_transcript`: extends the transcript of a known meeting;
      nothing happens for an unknown sid. */
  function AppendTranscript(db: Db, sid: string, text: string): (r: Db)
    ensures sid !in db.meetings ==> r == db
    ensures sid in db.meetings ==>
      var m := db.meetings[sid];
      && r.chunks == db.chunks
      && r.meetings == db.meetings[sid := m.(fullTranscript := Some(Appended(m.fullTranscript, text)))]
    ensures Valid(db) ==> Valid(r)
  {
    if sid !in db.meetings then db
    else
      var m := db.meetings[sid];
      Db(db.meetings[sid := m.(fullTranscript := Some(Appended(m.fullTranscript, text)))], db.chunks)
  }

  /** Successive calls of `append_transcript`, in order. */
  function AppendAll(db: Db, sid: string, ts: seq<string>): Db
    decreases |ts|
  {
    if ts == [] then db else AppendAll(AppendTranscript(db, sid, ts[0]), sid, ts[1..])
  }

  /** Appending to a non-empty transcript adds a newline and the fragments
      joined by newlines. */
  lemma {:induction false} AppendAllExtends(db: Db, sid: string, p: string, ts: seq<string>)
    requires sid in db.meetings && db.meetings[sid].fullTranscript == Some(p) && p != ""
    requires ts != []
    ensures sid in AppendAll(db, sid, ts).meetings
    ensures AppendAll(db, sid, ts).meetings[sid].fullTranscript == Some(p + "\n" + Join("\n", ts))
    decreases |ts|
  {
    var db1 := AppendTranscript(db, sid, ts[0]);
    if |ts| == 1 {
      assert AppendAll(db1, sid, ts[1..]) == db1;
    } else {
      AppendAllExtends(db1, sid, p + "\n" + ts[0], ts[1..]);
      assert p + "\n" + ts[0] + "\n" + Join("\n", ts[1..]) == p + "\n" + (ts[0] + "\n" + Join("\n", ts[1..]));
    }
  }

  /** Fragments appended to a meeting with no transcript yet end up joined
      by single newlines, with no leading newline, provided the first
      fragment is non-empty (an empty first fragment would be replaced by
      the second). */
  lemma AppendAllJoins(db: Db, sid: string, ts: seq<string>)
    requires sid in db.meetings && !Present(db.meetings[sid].fullTranscript)
    requires ts != [] && ts[0] != ""
    ensures sid in AppendAll(db, sid, ts).meetings
    ensures AppendAll(db, sid, ts).meetings[sid].fullTranscript == Some(Join("\n", ts))
  {
    var db1 := AppendTranscript(db, sid, ts[0]);
    if |ts| == 1 {
      assert AppendAll(db1, sid, ts[1..]) == db1;
    } else {
      AppendAllExtends(db1, sid, ts[0], ts[1..]);
    }
  }

  /** `save_summary`: marks a known meeting completed at `now`, stores the
      summary and the two lists (missing lists become empty), and takes the
      transcript from `data` only when the stored one is falsy. An unknown
      sid changes nothing and yields no record. */
  function SaveSummary(db: Db, sid: string, data: Reply.SummaryData, now: int): (r: (Db, Option<Meeting>))
    ensures sid !in db.meetings ==> r == (db, None)
    ensures sid in db.meetings ==>
      var m := db.meetings[sid];
      && r.1.Some?
      && var s := r.1.value;
      && r.0 == Db(db.meetings[sid := s], db.chunks)
      && s.status.Name() == "completed" && s.endedAt == Some(now)
      && s.summary == data.summary
      && s.actionItems == data.actionItems.GetOr([])
      && s.keyDecisions == data.keyDecisions.GetOr([])
      && (Present(m.fullTranscript) ==> s.fullTranscript == m.fullTranscript)
      && (!Present(m.fullTranscript) ==> s.fullTranscript == data.fullTranscript)
      && s.(status := m.status, endedAt := m.endedAt, summary := m.summary, actionItems := m.actionItems,
            keyDecisions := m.keyDecisions, fullTranscript := m.fullTranscript) == m
    ensures Valid(db) ==> Valid(r.0)
  {
    if sid !in db.meetings then (db, None)
    else
      var m := db.meetings[sid];
      var s := m.(
        status := Completed,
        endedAt := Some(now),
        summary := data.summary,
        actionItems := data.actionItems.GetOr([]),
        keyDecisions := data.keyDecisions.GetOr([]),
        fullTranscript := if Present(m.fullTranscript) then m.fullTranscript else data.fullTranscript);
      (Db(db.meetings[sid := s], db.chunks), Some(s))
  }

  // ------------------------------------------------------------ listing

  /** Sort key for "newest first": ascending order of `-created_at`. */
  function Newest(m: Meeting): real {
    -(m.createdAt as real)
  }

  /** `get_user_meetings`: the user's meetings, newest first. The store
      orders meetings with equal creation times arbitrarily, so the model
      promises nothing about them. */
  method UserMeetings(db: Db, userId: string) returns (ms: seq<Meeting>)
    requires Keyed(db)
    ensures forall m :: m in ms <==> m in db.meetings.Values && m.userId == userId
    ensures NoDuplicates(ms)
    ensures forall i, j | 0 <= i < j < |ms| :: ms[i].createdAt >= ms[j].createdAt
  {
    ms := [];
    var todo := db.meetings.Keys;
    while todo != {}
      invariant todo <= db.meetings.Keys
      invariant SortedBy(ms, Newest)
      invariant NoDuplicates(ms)
      invariant forall m | m in ms :: m.sid in db.meetings && m.sid !in todo && db.meetings[m.sid] == m
      invariant forall m | m in ms :: m.userId == userId
      invariant forall k | k in db.meetings && k !in todo && db.meetings[k].userId == userId :: db.meetings[k] in ms
      decreases |todo|
    {
      var k :| k in todo;
      var m := db.meetings[k];
      if m.userId == userId {
        InsertMembers(m, ms, Newest);
        ms := Insert(m, ms, Newest);
      }
      todo := todo - {k};
    }
    forall i, j | 0 <= i < j < |ms| ensures ms[i].createdAt >= ms[j].createdAt {
      assert Newest(ms[i]) <= Newest(ms[j]);
    }
  }

  /** The fields `to_dict` exposes; the creation time is kept as a number
      rather than its ISO text. */
  datatype MeetingView = MeetingView(
    id: string,
    title: string,
    status: string,
    createdAt: int,
    summary: Option<string>,
    actionItems: seq<string>,
    keyDecisions: seq<string>)

  /** `Meeting.to_dict`. */
  function ToDict(m: Meeting): (v: MeetingView)
    ensures v.id == m.sid
    ensures v.status in {"in_progress", "completed", "error"}
    ensures v.status == "completed" <==> m.status == Completed
  {
    MeetingView(m.sid, m.title, m.status.Name(), m.createdAt, m.summary, m.actionItems, m.keyDecisions)
  }

  /** The view omits exactly the user id, the end time and the transcript:
      two records have the same view if and only if they differ in those
      fields alone. */
  lemma ToDictOmitsHidden(m1: Meeting, m2: Meeting)
    ensures ToDict(m1) == ToDict(m2) <==>
      m1.(userId := m2.userId, endedAt := m2.endedAt, fullTranscript := m2.fullTranscript) == m2
  {
    if ToDict(m1) == ToDict(m2) {
      assert m1.status.Name() == m2.status.Name();
      assert m1.status == m2.status by {
        match m1.status
        case InProgress =>
        case Completed =>
        case Errored =>
      }
    }
  }

  /** `list_meetings`: 400 without a (non-empty) `user_id`; otherwise 200
      with the views of that user's meetings, each exactly once, newest
      first. */
  method ListMeetings(db: Db, userArg: Option<string>) returns (r: Outcome<seq<MeetingView>>)
    requires Keyed(db)
    ensures !Present(userArg) ==> r == Fail(StatusBadRequest, "Missing user_id parameter")
    ensures Present(userArg) ==>
      && r.Ok? && r.code == StatusOk
      && (forall i | 0 <= i < |r.value| ::
            var v := r.value[i];
            v.id in db.meetings && db.meetings[v.id].userId == userArg.value && v == ToDict(db.meetings[v.id]))
      && (forall k | k in db.meetings && db.meetings[k].userId == userArg.value ::
            exists i | 0 <= i < |r.value| :: r.value[i].id == k)
      && (forall i, j | 0 <= i < j < |r.value| :: r.value[i].id != r.value[j].id)
      && (forall i, j | 0 <= i < j < |r.value| :: r.value[i].createdAt >= r.value[j].createdAt)
  {
    if !Present(userArg) {
      return Fail(StatusBadRequest, "Missing user_id parameter");
    }
    var ms := UserMeetings(db, userArg.value);
    var views := seq(|ms|, i requires 0 <= i < |ms| => ToDict(ms[i]));
    forall k | k in db.meetings && db.meetings[k].userId == userArg.value
      ensures exists i | 0 <= i < |views| :: views[i].id == k
    {
      var m := db.meetings[k];
      assert m in db.meetings.Values;
      var i :| 0 <= i < |ms| && ms[i] == m;
      assert views[i].id == k;
    }
    forall i, j | 0 <= i < j < |views| ensures views[i].id != views[j].id {
      assert ms[i] in ms && ms[j] in ms;
    }
    return Ok(StatusOk, views);
  }

  // ----------------------------------------------------------- deletion

  /** The chunks not filed under `sid`. */
  function OutsideFolder(sid: string): Chunk -> bool {
    (c: Chunk) => c.folderId != sid
  }

  /** The chunks that survive deleting meeting `sid`. */
  function ChunksWithout(chunks: seq<Chunk>, sid: string): seq<Chunk> {
    Keep(chunks, OutsideFolder(sid))
  }

  /** `delete_meeting_by_sid`: false and no change for an unknown sid;
      otherwise the meeting and every chunk filed under its sid are gone and
      nothing else is touched: the other chunks stay, in collection order. */
  function DeleteBySid(db: Db, sid: string): (r: (Db, bool))
    ensures sid !in db.meetings ==> r == (db, false)
    ensures sid in db.meetings ==>
      && r.1
      && r.0.meetings == db.meetings - {sid}
      && (forall c :: c in r.0.chunks <==> c in db.chunks && c.folderId != sid)
      && (forall c :: multiset(r.0.chunks)[c] == if c.folderId != sid then multiset(db.chunks)[c] else 0)
      && Picks(r.0.chunks, db.chunks, Passing(db.chunks, OutsideFolder(sid)))
    ensures Valid(db) ==> Valid(r.0)
  {
    if sid !in db.meetings then (db, false)
    else
      KeepCounts(db.chunks, OutsideFolder(sid));
      KeepInOrder(db.chunks, OutsideFolder(sid));
      (Db(db.meetings - {sid}, ChunksWithout(db.chunks, sid)), true)
  }

  /** `delete_meeting`, the HTTP route: 404 for an unknown sid, otherwise
      the same cascade as the service function. */
  function DeleteMeeting(db: Db, sid: string): (r: (Db, Outcome<string>))
    ensures sid !in db.meetings ==> r == (db, Fail(StatusNotFound, "Meeting not found"))
    ensures sid in db.meetings ==> r.1 == Ok(StatusOk, "Meeting deleted successfully")
  {
    if sid !in db.meetings then (db, Fail(StatusNotFound, "Meeting not found"))
    else (Db(db.meetings - {sid}, ChunksWithout(db.chunks, sid)), Ok(StatusOk, "Meeting deleted successfully"))
  }

  /** The route and the service delete the same things, and the route
      succeeds exactly when the service reports a deletion. */
  lemma RouteMatchesService(db: Db, sid: string)
    ensures DeleteMeeting(db, sid).0 == DeleteBySid(db, sid).0
    ensures DeleteMeeting(db, sid).1.Ok? <==> DeleteBySid(db, sid).1
  {
  }

  /** Creating a meeting and deleting it again restores the store when no
      chunk was filed under its sid. */
  lemma {:induction false} CreateThenDelete(db: Db, sid: string, userId: string, now: int)
    requires sid !in db.meetings
    requires forall i | 0 <= i < |db.chunks| :: db.chunks[i].folderId != sid
    ensures DeleteBySid(GetOrCreate(db, sid, userId, now).0, sid).0 == db
  {
    KeepAll(db.chunks, OutsideFolder(sid));
    assert db.meetings[sid := NewMeeting(sid, userId, now)] - {sid} == db.meetings;
  }
}

=== FILE: notebook.dfy ===
/**
 * Notebook chat: the question is embedded, the chunks of the user's folder
 * are scored against it, the best `top_k` are joined into the context of a
 * chat prompt. The embedding service, the similarity measure and the chat
 * model are parameters; scores are plain ordered numbers.
 */
module Notebook {
  import opened Common
  import opened Text
  import opened Ordering
  import opened Chunks

  /** One `(score, text)` pair of `scored_chunks`. */
  datatype Scored = Scored(score: real, text: string)

  /** Sort key for `sort(reverse=True, key=score)`: ascending `-score`. */
  function Descending(s: Scored): real {
    -s.score
  }

  /** `scored_chunks.sort(reverse=True, key=lambda x: x[0])`: highest score
      first, equal scores in their original order. */
  function Rank(xs: seq<Scored>): (r: seq<Scored>)
    ensures multiset(r) == multiset(xs)
    ensures forall i, j | 0 <= i < j < |r| :: r[i].score >= r[j].score
  {
    var r := SortBy(xs, Descending);
    assert forall i, j | 0 <= i < j < |r| :: Descending(r[i]) <= Descending(r[j]);
    r
  }

  /** The entries scored exactly `v`, in order. */
  function SameScore(xs: seq<Scored>, v: real): seq<Scored>
    decreases |xs|
  {
    if xs == [] then [] else (if xs[0].score == v then [xs[0]] else []) + SameScore(xs[1..], v)
  }

  /** Ranking is stable: the entries with any one score appear in the
      ranking in the order they were scored. */
  lemma {:induction false} RankStable(xs: seq<Scored>, v: real)
    ensures SameScore(Rank(xs), v) == SameScore(xs, v)
  {
    var w := -v;
    assert Rank(xs) == SortBy(xs, Descending);
    SortByStable(xs, Descending, w);
    SameScoreIsWithKey(xs, v, w);
    SameScoreIsWithKey(Rank(xs), v, w);
  }

  lemma {:induction false} SameScoreIsWithKey(xs: seq<Scored>, v: real, w: real)
    requires w == -v
    ensures SameScore(xs, v) == WithKey(xs, Descending, w)
    decreases |xs|
  {
    if xs != [] {
      SameScoreIsWithKey(xs[1..], v, w);
    }
  }

  /** Python's `xs[:k]`: a negative `k` counts from the end. */
  function TakePrefix<T>(xs: seq<T>, k: int): (r: seq<T>)
    ensures |r| <= |xs| && xs == r + xs[|r|..]
    ensures k >= 0 ==> |r| == if k < |xs| then k else |xs|
    ensures k < 0 ==> |xs| - |r| == if -k < |xs| then -k else |xs|
  {
    if k >= 0 then xs[..if k < |xs| then k else |xs|]
    else xs[..if -k < |xs| then |xs| + k else 0]
  }

  /** `scored_chunks[:top_k]` after ranking. */
  function Select(scored: seq<Scored>, topK: int): seq<Scored> {
    TakePrefix(Rank(scored), topK)
  }

  /** The selection is the best part of the ranking: of the requested size
      (for `top_k >= 0`), highest score first, a sub-multiset of the scored
      entries, and no entry left out scores above one that was kept. */
  lemma SelectIsBest(scored: seq<Scored>, topK: int)
    ensures var sel := Select(scored, topK);
      && (topK >= 0 ==> |sel| == if topK < |scored| then topK else |scored|)
      && (forall i, j | 0 <= i < j < |sel| :: sel[i].score >= sel[j].score)
      && multiset(sel) <= multiset(scored)
      && var left := Rank(scored)[|sel|..];
         && multiset(sel) + multiset(left) == multiset(scored)
         && forall i, j | 0 <= i < |sel| && 0 <= j < |left| :: left[j].score <= sel[i].score
  {
    var ranked := Rank(scored);
    RankLength(scored);
    var sel := Select(scored, topK);
    SplitRanking(ranked, |sel|);
    assert sel == ranked[..|sel|];
  }

  lemma RankLength(xs: seq<Scored>)
    ensures |Rank(xs)| == |xs|
  {
    assert |multiset(Rank(xs))| == |multiset(xs)|;
  }

  /** Cutting a ranking in two: the front is ranked, the parts together
      are the whole, and nothing behind the cut outscores anything in front. */
  lemma SplitRanking(ranked: seq<Scored>, n: nat)
    requires n <= |ranked|
    requires forall i, j | 0 <= i < j < |ranked| :: ranked[i].score >= ranked[j].score
    ensures forall i, j | 0 <= i < j < n :: ranked[..n][i].score >= ranked[..n][j].score
    ensures multiset(ranked[..n]) + multiset(ranked[n..]) == multiset(ranked)
    ensures forall i, j | 0 <= i < n && 0 <= j < |ranked[n..]| :: ranked[n..][j].score <= ranked[..n][i].score
  {
    assert ranked == ranked[..n] + ranked[n..];
    forall i, j | 0 <= i < n && 0 <= j < |ranked[n..]| ensures ranked[n..][j].score <= ranked[..n][i].score {
      assert ranked[n..][j] == ranked[n + j];
      assert ranked[..n][i] == ranked[i];
    }
  }

  // ------------------------------------------------------------- route

  /** What the chat needs besides the stored chunks. */
  datatype Services = Services(
    embed: string -> Vector,
    similarity: (Vector, Vector) -> real,
    complete: string -> string)

  /** The chunks `Chunk.objects(user_id=..., folder_id=...)` returns. */
  function FolderChunks(chunks: seq<Chunk>, userId: string, folderId: string): seq<Chunk> {
    Keep(chunks, (c: Chunk) => c.userId == userId && c.folderId == folderId)
  }

  /** The scored pairs, one per chunk, in store order. */
  function ScoreAll(cs: seq<Chunk>, question: Vector, similarity: (Vector, Vector) -> real): (r: seq<Scored>)
    ensures |r| == |cs|
    ensures forall i | 0 <= i < |cs| :: r[i] == Scored(similarity(question, cs[i].embedding), cs[i].text)
  {
    seq(|cs|, i requires 0 <= i < |cs| => Scored(similarity(question, cs[i].embedding), cs[i].text))
  }

  function TextsOf(sel: seq<Scored>): (r: seq<string>)
    ensures |r| == |sel| && forall i | 0 <= i < |sel| :: r[i] == sel[i].text
  {
    seq(|sel|, i requires 0 <= i < |sel| => sel[i].text)
  }

  /** The context: the selected texts, in rank order, separated by a blank
      line. */
  function Context(chunks: seq<Chunk>, userId: string, folderId: string, question: string, topK: int, s: Services): (r: string)
    ensures topK == 0 ==> r == ""
    ensures (forall i | 0 <= i < |chunks| :: chunks[i].userId != userId || chunks[i].folderId != folderId) ==> r == ""
  {
    var folder := FolderChunks(chunks, userId, folderId);
    var scored := ScoreAll(folder, s.embed(question), s.similarity);
    NoFolderChunks(chunks, userId, folderId);
    RankNothing(scored);
    Join("\n\n", TextsOf(Select(scored, topK)))
  }

  /** A store with no chunk of the (user, folder) pair gives that folder
      no chunks. */
  lemma NoFolderChunks(chunks: seq<Chunk>, userId: string, folderId: string)
    ensures (forall i | 0 <= i < |chunks| :: chunks[i].userId != userId || chunks[i].folderId != folderId) ==>
      FolderChunks(chunks, userId, folderId) == []
  {
    var folder := FolderChunks(chunks, userId, folderId);
    if folder != [] {
      assert folder[0] in chunks;
    }
  }

  /** Nothing to rank ranks as nothing. */
  lemma RankNothing(xs: seq<Scored>)
    ensures xs == [] ==> Rank(xs) == []
  {
    assert |multiset(Rank(xs))| == |multiset(xs)|;
  }

  /** Splitting the context at the blank lines gives back the selected
      texts, best first, when none of them holds a blank line or ends with
      a line break (as no stripped window does). */
  lemma ContextSplitsBack(chunks: seq<Chunk>, userId: string, folderId: string, question: string, topK: int, s: Services)
    requires var scored := ScoreAll(FolderChunks(chunks, userId, folderId), s.embed(question), s.similarity);
      var sel := Select(scored, topK);
      && sel != []
      && forall i | 0 <= i < |sel| ::
           !Contains(sel[i].text, "\n\n") && (sel[i].text == [] || sel[i].text[|sel[i].text| - 1] != '\n')
    ensures var scored := ScoreAll(FolderChunks(chunks, userId, folderId), s.embed(question), s.similarity);
      Split(Context(chunks, userId, folderId, question, topK, s), "\n\n") == TextsOf(Select(scored, topK))
  {
    var scored := ScoreAll(FolderChunks(chunks, userId, folderId), s.embed(question), s.similarity);
    var texts := TextsOf(Select(scored, topK));
    forall i | 0 <= i < |texts| ensures SeparatorFree(texts[i], "\n\n") {
      BlankLineFree(texts[i]);
    }
    SplitJoin("\n\n", texts);
  }

  /** The user turn sent to the chat model. */
  function Prompt(context: string, question: string): string {
    "Context: " + context + "\n\nQuestion: " + question
  }

  /** `chat_bot_notebook`: 400 when the user id, folder id or question is
      missing or empty; otherwise the chat model's answer to the prompt
      built from the best `top_k` chunks of that folder. */
  function ChatBotNotebook(chunks: seq<Chunk>, userId: Option<string>, folderId: Option<string>, question: Option<string>,
                           topK: int, s: Services): (r: Outcome<string>)
    ensures !(Present(userId) && Present(folderId) && Present(question)) <==> r.Fail?
    ensures r.Fail? ==> r == Fail(StatusBadRequest, "Missing required fields")
    ensures r.Ok? ==> r == Ok(StatusOk, s.complete(Prompt(Context(chunks, userId.value, folderId.value, question.value, topK, s), question.value)))
  {
    if !(Present(userId) && Present(folderId) && Present(question)) then
      Fail(StatusBadRequest, "Missing required fields")
    else
      var context := Context(chunks, userId.value, folderId.value, question.value, topK, s);
      Ok(StatusOk, s.complete(Prompt(context, question.value)))
  }

  /** A rejected request is decided before any service is used. */
  lemma RejectionUsesNoService(chunks: seq<Chunk>, userId: Option<string>, folderId: Option<string>, question: Option<string>,
                               topK: int, s: Services, t: Services)
    requires ChatBotNotebook(chunks, userId, folderId, question, topK, s).Fail?
    ensures ChatBotNotebook(chunks, userId, folderId, question, topK, t) == ChatBotNotebook(chunks, userId, folderId, question, topK, s)
  {
  }

  /** Chunks of other users or other folders, stored before or after the
      folder's own, are not among the chunks the chat scores. */
  lemma {:induction false} FolderIgnoresOthers(chunks: seq<Chunk>, others: seq<Chunk>, userId: string, folderId: string)
    requires forall i | 0 <= i < |others| :: others[i].userId != userId || others[i].folderId != folderId
    ensures FolderChunks(chunks + others, userId, folderId) == FolderChunks(chunks, userId, folderId)
    ensures FolderChunks(others + chunks, userId, folderId) == FolderChunks(chunks, userId, folderId)
  {
    var p := (c: Chunk) => c.userId == userId && c.folderId == folderId;
    KeepAppend(chunks, others, p);
    KeepAppend(others, chunks, p);
    KeepNone(others, p);
    assert Keep(chunks, p) + [] == Keep(chunks, p);
    assert [] + Keep(chunks, p) == Keep(chunks, p);
  }

  /** Hence such chunks never reach the context. */
  lemma OtherFoldersIgnored(chunks: seq<Chunk>, others: seq<Chunk>, userId: string, folderId: string, question: string,
                            topK: int, s: Services)
    requires forall i | 0 <= i < |others| :: others[i].userId != userId || others[i].folderId != folderId
    ensures Context(chunks + others, userId, folderId, question, topK, s) == Context(chunks, userId, folderId, question, topK, s)
    ensures Context(others + chunks, userId, folderId, question, topK, s) == Context(chunks, userId, folderId, question, topK, s)
  {
    FolderIgnoresOthers(chunks, others, userId, folderId);
  }

  /** Every scored entry comes from a chunk of the requested user and
      folder, scored against the question's embedding. */
  lemma ScoredComeFromFolder(chunks: seq<Chunk>, userId: string, folderId: string, question: Vector,
                             similarity: (Vector, Vector) -> real, e: Scored)
    requires e in ScoreAll(FolderChunks(chunks, userId, folderId), question, similarity)
    ensures exists c | c in chunks ::
              c.userId == userId && c.folderId == folderId && e == Scored(similarity(question, c.embedding), c.text)
  {
    var cs := FolderChunks(chunks, userId, folderId);
    var i :| 0 <= i < |cs| && ScoreAll(cs, question, similarity)[i] == e;
    assert cs[i] in cs;
  }

  /** With `top_k` at least the number of scored entries, all of them are
      selected. */
  lemma LargeTopKKeepsAll(scored: seq<Scored>, topK: int)
    requires topK >= |scored|
    ensures multiset(Select(scored, topK)) == multiset(scored)
  {
    RankLength(scored);
    assert Select(scored, topK) == Rank(scored);
  }
}

=== FILE: ordering.dfy ===
/**
 * Sorting by a numeric key: the document store's `order_by` for listings
 * (newest meeting first, earliest reminder first), and Python's stable
 * `list.sort` for ranking notebook chunks. Insertion places a new element
 * before every element with an equal or larger key, so sorting the
 * sequence from the back is stable.
 */
module Ordering {

  /** `xs` is non-decreasing under `key`. */
  predicate SortedBy<T>(xs: seq<T>, key: T -> real) {
    forall i, j | 0 <= i < j < |xs| :: key(xs[i]) <= key(xs[j])
  }

  /** No value occurs twice in `xs`. */
  predicate NoDuplicates<T(==)>(xs: seq<T>) {
    forall i, j | 0 <= i < j < |xs| :: xs[i] != xs[j]
  }

  /** Insertion into a sorted sequence: the result is sorted, holds exactly
      one more copy of `x`, and stays free of duplicates when `x` is new. */
  function Insert<T(==)>(x: T, xs: seq<T>, key: T -> real): (r: seq<T>)
    requires SortedBy(xs, key)
    ensures SortedBy(r, key)
    ensures multiset(r) == multiset(xs) + multiset{x}
    ensures NoDuplicates(xs) && x !in xs ==> NoDuplicates(r)
    decreases |xs|
  {
    if xs == [] || key(x) <= key(xs[0]) then
      [x] + xs
    else
      var rest := Insert(x, xs[1..], key);
      InsertStep(x, xs, rest, key);
      [xs[0]] + rest
  }

  /** The recursive case of `Insert`: the head stays in front of the
      insertion into the tail. */
  lemma InsertStep<T>(x: T, xs: seq<T>, rest: seq<T>, key: T -> real)
    requires SortedBy(xs, key) && xs != [] && key(xs[0]) < key(x)
    requires SortedBy(rest, key)
    requires multiset(rest) == multiset(xs[1..]) + multiset{x}
    requires NoDuplicates(xs[1..]) && x !in xs[1..] ==> NoDuplicates(rest)
    ensures SortedBy([xs[0]] + rest, key)
    ensures multiset([xs[0]] + rest) == multiset(xs) + multiset{x}
    ensures NoDuplicates(xs) && x !in xs ==> NoDuplicates([xs[0]] + rest)
  {
    assert xs == [xs[0]] + xs[1..];
    assert forall y | y in rest :: y in xs[1..] || y == x by {
      forall y | y in rest ensures y in xs[1..] || y == x {
        assert y in multiset(rest);
      }
    }
    ConsSorted(xs[0], rest, key);
    ConsDistinct(xs, x, rest);
  }

  /** Putting a key no larger than every other in front keeps `rest` sorted. */
  lemma ConsSorted<T>(y: T, rest: seq<T>, key: T -> real)
    requires SortedBy(rest, key)
    requires forall z | z in rest :: key(y) <= key(z)
    ensures SortedBy([y] + rest, key)
  {
    forall i, j | 0 <= i < j < |[y] + rest| ensures key(([y] + rest)[i]) <= key(([y] + rest)[j]) {
      if i > 0 {
        assert ([y] + rest)[i] == rest[i - 1];
      }
      assert ([y] + rest)[j] == rest[j - 1];
    }
  }

  lemma ConsDistinct<T>(xs: seq<T>, x: T, rest: seq<T>)
    requires |xs| > 0
    requires forall y | y in rest :: y in xs[1..] || y == x
    requires NoDuplicates(rest) || !(NoDuplicates(xs[1..]) && x !in xs[1..])
    ensures NoDuplicates(xs) && x !in xs ==> NoDuplicates([xs[0]] + rest)
  {
    if NoDuplicates(xs) && x !in xs {
      assert NoDuplicates(xs[1..]);
      assert xs[0] !in xs[1..];
      forall i, j | 0 <= i < j < |[xs[0]] + rest| ensures ([xs[0]] + rest)[i] != ([xs[0]] + rest)[j] {
        assert ([xs[0]] + rest)[j] == rest[j - 1];
        if i > 0 {
          assert ([xs[0]] + rest)[i] == rest[i - 1];
        }
      }
    }
  }

  /** The inserted sequence holds the old elements and the new one, and
      nothing else. */
  lemma InsertMembers<T>(x: T, xs: seq<T>, key: T -> real)
    requires SortedBy(xs, key)
    ensures forall y :: y in Insert(x, xs, key) <==> y in xs || y == x
  {
    var r := Insert(x, xs, key);
    forall y ensures y in r <==> y in xs || y == x {
      assert y in r <==> y in multiset(r);
      assert y in xs <==> y in multiset(xs);
    }
  }

  /** Stable sort: the first element is inserted into the sorted rest,
      ahead of every element with an equal key. */
  function SortBy<T(==)>(xs: seq<T>, key: T -> real): (r: seq<T>)
    ensures SortedBy(r, key)
    ensures multiset(r) == multiset(xs)
    decreases |xs|
  {
    if xs == [] then []
    else
      assert xs == [xs[0]] + xs[1..];
      Insert(xs[0], SortBy(xs[1..], key), key)
  }

  /** The elements whose key is `v`, in order. */
  function WithKey<T>(xs: seq<T>, key: T -> real, v: real): seq<T>
    decreases |xs|
  {
    if xs == [] then []
    else (if key(xs[0]) == v then [xs[0]] else []) + WithKey(xs[1..], key, v)
  }

  /** Insertion puts `x` in front of every element sharing its key. */
  lemma {:induction false} InsertWithKey<T>(x: T, ys: seq<T>, key: T -> real, v: real)
    requires SortedBy(ys, key)
    ensures WithKey(Insert(x, ys, key), key, v) == (if key(x) == v then [x] else []) + WithKey(ys, key, v)
    decreases |ys|
  {
    if ys == [] || key(x) <= key(ys[0]) {
      WithKeyCons(x, ys, key, v);
    } else {
      SortedTail(ys, key);
      InsertWithKey(x, ys[1..], key, v);
      WithKeyPast(x, ys, Insert(x, ys[1..], key), key, v);
    }
  }

  /** The recursive case: the head, with a smaller key than `x`, stays in
      front. */
  lemma WithKeyPast<T>(x: T, ys: seq<T>, rest: seq<T>, key: T -> real, v: real)
    requires ys != [] && key(ys[0]) < key(x)
    requires WithKey(rest, key, v) == (if key(x) == v then [x] else []) + WithKey(ys[1..], key, v)
    ensures WithKey([ys[0]] + rest, key, v) == (if key(x) == v then [x] else []) + WithKey(ys, key, v)
  {
    WithKeyCons(ys[0], rest, key, v);
    WithKeyCons(ys[0], ys[1..], key, v);
    assert [ys[0]] + ys[1..] == ys;
  }

  lemma WithKeyCons<T>(y: T, zs: seq<T>, key: T -> real, v: real)
    ensures WithKey([y] + zs, key, v) == (if key(y) == v then [y] else []) + WithKey(zs, key, v)
  {
    assert ([y] + zs)[1..] == zs;
  }

  /** Dropping the head keeps a sequence sorted. */
  lemma SortedTail<T>(ys: seq<T>, key: T -> real)
    requires SortedBy(ys, key) && ys != []
    ensures SortedBy(ys[1..], key)
  {
    forall i, j | 0 <= i < j < |ys[1..]| ensures key(ys[1..][i]) <= key(ys[1..][j]) {
      assert ys[1..][i] == ys[i + 1] && ys[1..][j] == ys[j + 1];
    }
  }

  /** `SortBy` is stable: elements with equal keys keep their relative
      order. */
  lemma {:induction false} SortByStable<T>(xs: seq<T>, key: T -> real, v: real)
    ensures WithKey(SortBy(xs, key), key, v) == WithKey(xs, key, v)
    decreases |xs|
  {
    if xs != [] {
      SortByStable(xs[1..], key, v);
      InsertWithKey(xs[0], SortBy(xs[1..], key), key, v);
    }
  }
}

=== FILE: reminders.dfy ===
/**
 * Reminders: create, list the reminders of one user starting on one
 * calendar day (earliest first), and delete. Times are integer
 * microseconds since the epoch and a date is a day number, so a day runs
 * from `time.min` to `time.max` of that date. The id generator is a
 * parameter.
 */
module Reminders {
  import opened Common
  import opened Ordering

  datatype Reminder = Reminder(
    userId: string,
    title: string,
    start: int,
    end: int,
    location: Option<string>,
    done: bool)

  type ReminderDb = map<string, Reminder>

  /** The success body of `create_reminder`. */
  datatype Created = Created(id: string, title: string)

  /** One entry of the day listing. */
  datatype ReminderView = ReminderView(id: string, title: string, start: int, end: int, location: Option<string>, done: bool)

  const MicrosPerDay: int := 86_400_000_000

  /** `datetime.combine(date, time.min)`. */
  function DayStart(day: int): int {
    day * MicrosPerDay
  }

  /** `datetime.combine(date, time.max)`: the last microsecond of the day. */
  function DayEnd(day: int): int {
    DayStart(day) + MicrosPerDay - 1
  }

  /** The inclusive bounds of the query select exactly the instants whose
      calendar day is `day`. */
  lemma DayWindow(t: int, day: int)
    ensures DayStart(day) <= t <= DayEnd(day) <==> t / MicrosPerDay == day
  {
    var q := t / MicrosPerDay;
    assert q * MicrosPerDay <= t < q * MicrosPerDay + MicrosPerDay;
    if q < day {
      assert q * MicrosPerDay + MicrosPerDay <= day * MicrosPerDay;
    } else if q > day {
      assert day * MicrosPerDay + MicrosPerDay <= q * MicrosPerDay;
    }
  }

  /** `create_reminder`: stores one new, not-done reminder under the fresh
      id `newId` and echoes the id and title. */
  function CreateReminder(db: ReminderDb, userId: string, title: string, start: int, end: int,
                          location: Option<string>, newId: string): (r: (ReminderDb, Outcome<Created>))
    requires newId !in db
    ensures r.1 == Ok(StatusCreated, Created(newId, title))
    ensures r.0.Keys == db.Keys + {newId} && |r.0| == |db| + 1
    ensures forall id | id in db :: r.0[id] == db[id]
    ensures r.0[newId] == Reminder(userId, title, start, end, location, false)
  {
    (db[newId := Reminder(userId, title, start, end, location, false)], Ok(StatusCreated, Created(newId, title)))
  }

  /** The query of `get_by_day`: the user's reminders starting within the
      day. */
  predicate OnDay(r: Reminder, userId: string, day: int) {
    r.userId == userId && DayStart(day) <= r.start <= DayEnd(day)
  }

  function View(id: string, r: Reminder): ReminderView {
    ReminderView(id, r.title, r.start, r.end, r.location, r.done)
  }

  function ByStart(v: ReminderView): real {
    v.start as real
  }

  /** `get_by_day`: 200 with a view of every reminder of the user that
      starts within the day, each once, earliest first. The store orders
      equal start times arbitrarily, so the model promises nothing about
      them. */
  method GetByDay(db: ReminderDb, userId: string, day: int) returns (r: Outcome<seq<ReminderView>>)
    ensures r.Ok? && r.code == StatusOk
    ensures forall i | 0 <= i < |r.value| ::
      var v := r.value[i];
      v.id in db && OnDay(db[v.id], userId, day) && v == View(v.id, db[v.id])
    ensures forall id | id in db && OnDay(db[id], userId, day) :: exists i | 0 <= i < |r.value| :: r.value[i].id == id
    ensures forall i, j | 0 <= i < j < |r.value| :: r.value[i].id != r.value[j].id
    ensures forall i, j | 0 <= i < j < |r.value| :: r.value[i].start <= r.value[j].start
  {
    var vs: seq<ReminderView> := [];
    var todo := db.Keys;
    while todo != {}
      invariant todo <= db.Keys
      invariant SortedBy(vs, ByStart)
      invariant forall v | v in vs :: v.id in db && v.id !in todo && OnDay(db[v.id], userId, day) && v == View(v.id, db[v.id])
      invariant forall id | id in db && id !in todo && OnDay(db[id], userId, day) :: View(id, db[id]) in vs
      invariant NoDuplicates(vs)
      decreases |todo|
    {
      var id :| id in todo;
      if OnDay(db[id], userId, day) {
        InsertMembers(View(id, db[id]), vs, ByStart);
        vs := Insert(View(id, db[id]), vs, ByStart);
      }
      todo := todo - {id};
    }
    forall id | id in db && OnDay(db[id], userId, day) ensures exists i | 0 <= i < |vs| :: vs[i].id == id {
      var i :| 0 <= i < |vs| && vs[i] == View(id, db[id]);
    }
    forall i, j | 0 <= i < j < |vs| ensures vs[i].id != vs[j].id {
      assert vs[i] in vs && vs[j] in vs;
    }
    forall i, j | 0 <= i < j < |vs| ensures vs[i].start <= vs[j].start {
      assert ByStart(vs[i]) <= ByStart(vs[j]);
    }
    r := Ok(StatusOk, vs);
  }

  /** `delete_reminder`: 404 for an unknown id; otherwise exactly that
      reminder is removed. */
  function DeleteReminder(db: ReminderDb, id: string): (r: (ReminderDb, Outcome<string>))
    ensures id !in db ==> r == (db, Fail(StatusNotFound, "Reminder not found"))
    ensures id in db ==>
      && r.1 == Ok(StatusOk, "Reminder deleted")
      && r.0.Keys == db.Keys - {id}
      && forall k | k in r.0 :: r.0[k] == db[k]
  {
    if id !in db then (db, Fail(StatusNotFound, "Reminder not found"))
    else (db - {id}, Ok(StatusOk, "Reminder deleted"))
  }

  /** Deleting a reminder right after creating it restores the store, and
      deleting it a second time is refused. */
  lemma CreateThenDelete(db: ReminderDb, userId: string, title: string, start: int, end: int,
                         location: Option<string>, newId: string)
    requires newId !in db
    ensures var db1 := CreateReminder(db, userId, title, start, end, location, newId).0;
      var (db2, out) := DeleteReminder(db1, newId);
      && db2 == db && out.Ok?
      && DeleteReminder(db2, newId) == (db, Fail(StatusNotFound, "Reminder not found"))
  {
    var db1 := CreateReminder(db, userId, title, start, end, location, newId).0;
    assert db1 - {newId} == db;
  }
}

=== FILE: reply.dfy ===
/**
 * What comes back from the summarizer: the reply text is cleaned of a
 * Markdown code fence before it is parsed as JSON. The chat-completion call
 * and the JSON parser are outside the model; the parsed object is
 * `SummaryData`, with `None` for a key the object does not have.
 */
module Reply {
  import opened Common
  import opened Text

  /** The parsed summarizer object. */
  datatype SummaryData = SummaryData(
    summary: Option<string>,
    actionItems: Option<seq<string>>,
    keyDecisions: Option<seq<string>>,
    fullTranscript: Option<string>)

  const Fence: string := "```"
  const JsonFence: string := "```json"

  /** The clean-up in `summarize_transcript`: strip the reply; if it then
      opens with a fence, delete every "```json", then every "```", and
      strip again. */
  function StripFences(reply: string): (r: string)
    ensures Trimmed(r)
    ensures !StartsWith(Strip(reply), Fence) ==> r == Strip(reply)
  {
    var content := Strip(reply);
    if StartsWith(content, Fence) then
      Strip(Replace(Replace(content, JsonFence, ""), Fence, ""))
    else
      content
  }

  /** `summarize_transcript`: the chat model's reply to the transcript,
      cleaned of its fence and parsed. The chat model and the JSON parser
      are the parameters `complete` and `parse`. */
  function SummarizeTranscript(transcript: string, complete: string -> string, parse: string -> SummaryData): (r: SummaryData)
    ensures !StartsWith(Strip(complete(transcript)), Fence) ==> r == parse(Strip(complete(transcript)))
  {
    parse(StripFences(complete(transcript)))
  }

  /** `s` holds no backtick. */
  predicate NoBackticks(s: string) {
    !Mentions(s, '`')
  }

  /** A reply that is only whitespace around a fence-free text comes back
      as that text. */
  lemma UnfencedReply(pre: string, body: string, post: string)
    requires AllSpace(pre) && AllSpace(post) && Trimmed(body)
    requires !StartsWith(body, Fence)
    ensures StripFences(pre + body + post) == body
  {
    var s := pre + body + post;
    assert s[..|pre|] == pre && s[|pre| + |body|..] == post && s[|pre|..|pre| + |body|] == body;
    StripIsMiddle(s, |pre|, |pre| + |body|);
  }

  /** The reply shape the prompt asks for: a "```json" line, the object,
      and a closing "```". A trimmed object with no backtick in it is
      recovered exactly. */
  lemma FencedJsonRoundTrip(body: string)
    requires Trimmed(body) && NoBackticks(body)
    ensures StripFences(JsonFence + "\n" + body + "\n" + Fence) == body
  {
    var reply := JsonFence + "\n" + body + "\n" + Fence;
    var inner := "\n" + body + "\n";
    FencedReplyIsStripped(inner, reply);
    InnerHasNoBackticks(body, inner);
    RemoveFences(inner, reply);
    assert inner[..1] == "\n" && inner[1..1 + |body|] == body && inner[1 + |body|..] == "\n";
    StripIsMiddle(inner, 1, 1 + |body|);
  }

  lemma FencedReplyIsStripped(inner: string, reply: string)
    requires reply == JsonFence + inner + Fence
    ensures Strip(reply) == reply && StartsWith(reply, Fence)
  {
    assert reply[0] == '`' && reply[|reply| - 1] == '`';
    StripTrimmed(reply);
    assert reply[..3] == Fence;
  }

  lemma InnerHasNoBackticks(body: string, inner: string)
    requires NoBackticks(body) && inner == "\n" + body + "\n"
    ensures NoBackticks(inner)
  {
    forall k | 0 <= k < |inner| ensures inner[k] != '`' {
      if 0 < k < |inner| - 1 {
        assert inner[k] == body[k - 1];
      }
    }
  }

  /** A reply in the shape the prompt asks for hands the parser exactly
      the JSON text between the fences. */
  lemma SummarizeFencedJson(transcript: string, complete: string -> string, parse: string -> SummaryData, body: string)
    requires complete(transcript) == JsonFence + "\n" + body + "\n" + Fence
    requires Trimmed(body) && NoBackticks(body)
    ensures SummarizeTranscript(transcript, complete, parse) == parse(body)
  {
    FencedJsonRoundTrip(body);
  }

  /** The two replacements leave exactly the text between the fences. */
  lemma RemoveFences(inner: string, reply: string)
    requires NoBackticks(inner) && reply == JsonFence + inner + Fence
    ensures Replace(Replace(reply, JsonFence, ""), Fence, "") == inner
  {
    assert reply == JsonFence + (inner + Fence);
    ReplaceLeading(JsonFence, inner + Fence, "");
    ReplaceMissesShortTail(inner, Fence, JsonFence, "");
    assert Replace(reply, JsonFence, "") == inner + Fence;
    ReplaceFirst(inner, Fence, "", "");
    assert inner + Fence + "" == inner + Fence;
    assert Replace("", Fence, "") == "";
    assert inner + "" + "" == inner;
  }

  /** Removing "```json" before "```" does not remove every "json" tag:
      a reply whose fences split the word leaves it standing. */
  lemma StrayTagSurvives()
    ensures StripFences("```js```on") == "json"
  {
    var s := "```js```on";
    assert s[..3] == Fence;
    FencedStrip(s);
    NoJsonFenceInSplitTag();
    BareFencesInSplitTag();
    StripTrimmed("json");
  }

  /** A stripped reply that opens with a fence loses both tags and is
      stripped again. */
  lemma FencedStrip(s: string)
    requires Trimmed(s) && StartsWith(s, Fence)
    ensures StripFences(s) == Strip(Replace(Replace(s, JsonFence, ""), Fence, ""))
  {
    StripTrimmed(s);
  }

  lemma NoJsonFenceInSplitTag()
    ensures Replace("```js```on", JsonFence, "") == "```js```on"
  {
    var s := "```js```on";
    assert !Contains(s, JsonFence) by {
      forall k | 0 <= k <= |s| - |JsonFence| ensures !OccursAt(s, JsonFence, k) {
        assert k == 0 || k == 1 || k == 2 || k == 3;
        assert s[k + 3] != 'j' || s[k + 4] != 's' || s[k + 5] != 'o';
        assert JsonFence[3] == 'j' && JsonFence[4] == 's' && JsonFence[5] == 'o';
        assert s[k..k + 7][3] == s[k + 3] && s[k..k + 7][4] == s[k + 4] && s[k..k + 7][5] == s[k + 5];
      }
    }
    ReplaceAbsent(s, JsonFence, "");
  }

  lemma BareFencesInSplitTag()
    ensures Replace("```js```on", Fence, "") == "json"
  {
    assert "```js```on" == Fence + "js```on";
    ReplaceLeading(Fence, "js```on", "");
    assert "js```on" == "js" + Fence + "on";
    ReplaceFirst("js", Fence, "on", "");
  }
}

=== FILE: report.dfy ===
/**
 * The DOCX export route: which sections a meeting report has and in what
 * order. The document is a list of elements; rendering it to a file and
 * sending it are outside the model.
 */
module Report {
  import opened Common
  import opened Text

  datatype Element =
    | Heading(text: string, level: nat)
    | Paragraph(text: string)
    | Bullet(text: string)

  /** The posted JSON; `None` for a missing (or null) key. */
  datatype ReportRequest = ReportRequest(
    title: Option<string>,
    summary: Option<string>,
    actionItems: Option<seq<string>>,
    keyDecisions: Option<seq<string>>,
    fullTranscript: Option<string>)

  const DefaultTitle: string := "Meeting Report"

  /** `data.get("title") or "Meeting Report"`. */
  function TitleOf(req: ReportRequest): (t: string)
    ensures Present(req.title) ==> t == req.title.value
    ensures !Present(req.title) ==> t == "Meeting Report"
  {
    if Present(req.title) then req.title.value else DefaultTitle
  }

  /** One bullet per item, in order. */
  function Bullets(items: seq<string>): seq<Element> {
    seq(|items|, i requires 0 <= i < |items| => Bullet(items[i]))
  }

  /** The report for the (defaulted) request fields. */
  function Layout(title: string, summary: string, items: seq<string>, decisions: seq<string>, transcript: string): (doc: seq<Element>)
    ensures |doc| == 1 + (if !AllSpace(summary) then 2 else 0) + (if items != [] then 1 + |items| else 0)
                       + (if decisions != [] then 1 + |decisions| else 0) + (if !AllSpace(transcript) then 2 else 0)
    ensures doc[0] == Heading(title, 1)
  {
    [Heading(title, 1)]
    + (if !AllSpace(summary) then [Heading("Summary", 2), Paragraph(summary)] else [])
    + (if items != [] then [Heading("Action Items", 2)] + Bullets(items) else [])
    + (if decisions != [] then [Heading("Key Decisions", 2)] + Bullets(decisions) else [])
    + (if !AllSpace(transcript) then [Heading("Full Transcript", 2), Paragraph(transcript)] else [])
  }

  /** `export_docx`: 400 when the summary and transcript are blank and both
      lists are empty; otherwise the report's elements. */
  function ExportDocx(req: ReportRequest): (r: Outcome<seq<Element>>)
    ensures var summary := req.summary.GetOr("");
      var transcript := req.fullTranscript.GetOr("");
      r.Fail? <==> AllSpace(summary) && req.actionItems.GetOr([]) == [] && req.keyDecisions.GetOr([]) == [] && AllSpace(transcript)
    ensures r.Fail? ==> r == Fail(StatusBadRequest, "No content to export")
    ensures r.Ok? ==> r.code == StatusOk && |r.value| >= 3 && r.value[0] == Heading(TitleOf(req), 1)
  {
    var summary := req.summary.GetOr("");
    var items := req.actionItems.GetOr([]);
    var decisions := req.keyDecisions.GetOr([]);
    var transcript := req.fullTranscript.GetOr("");
    StripEmpty(summary);
    StripEmpty(transcript);
    if Strip(summary) == "" && items == [] && decisions == [] && Strip(transcript) == "" then
      Fail(StatusBadRequest, "No content to export")
    else
      Ok(StatusOk, Layout(TitleOf(req), summary, items, decisions, transcript))
  }

  // ----------------------------------------------------- reading it back

  /** The kinds of element a reader can pick out. */
  datatype Kind = TitleKind | SectionKind | BulletKind | ParagraphKind

  predicate Is(e: Element, k: Kind) {
    match k
    case TitleKind => e.Heading? && e.level == 1
    case SectionKind => e.Heading? && e.level == 2
    case BulletKind => e.Bullet?
    case ParagraphKind => e.Paragraph?
  }

  /** The text `e` contributes to the texts of kind `k`. */
  function Of(e: Element, k: Kind): seq<string> {
    if Is(e, k) then [e.text] else []
  }

  /** The texts of the elements of one kind, in document order. */
  function Texts(doc: seq<Element>, k: Kind): seq<string>
    decreases |doc|
  {
    if doc == [] then [] else Of(doc[0], k) + Texts(doc[1..], k)
  }

  lemma {:induction false} TextsAppend(a: seq<Element>, b: seq<Element>, k: Kind)
    ensures Texts(a + b, k) == Texts(a, k) + Texts(b, k)
    decreases |a|
  {
    if a == [] {
      assert a + b == b;
    } else {
      assert (a + b)[1..] == a[1..] + b;
      TextsAppend(a[1..], b, k);
    }
  }

  lemma SingleTexts(e: Element, k: Kind)
    ensures Texts([e], k) == Of(e, k)
  {
    assert [e][1..] == [];
  }

  lemma PairTexts(e1: Element, e2: Element, k: Kind)
    ensures Texts([e1, e2], k) == Of(e1, k) + Of(e2, k)
  {
    assert [e1, e2] == [e1] + [e2];
    TextsAppend([e1], [e2], k);
    SingleTexts(e1, k);
    SingleTexts(e2, k);
  }

  /** The items' bullets read back as the items for bullets, and as nothing
      for every other kind. */
  lemma BulletTexts(items: seq<string>, k: Kind)
    ensures Texts(Bullets(items), k) == if k == BulletKind then items else []
  {
    if k == BulletKind {
      BulletsReadBack(items);
    } else {
      BulletsHidden(items, k);
    }
  }

  lemma {:induction false} BulletsReadBack(items: seq<string>)
    ensures Texts(Bullets(items), BulletKind) == items
    decreases |items|
  {
    if items != [] {
      BulletsCons(items);
      TextsAppend([Bullet(items[0])], Bullets(items[1..]), BulletKind);
      SingleTexts(Bullet(items[0]), BulletKind);
      BulletsReadBack(items[1..]);
      assert [items[0]] + items[1..] == items;
    }
  }

  lemma {:induction false} BulletsHidden(items: seq<string>, k: Kind)
    requires k != BulletKind
    ensures Texts(Bullets(items), k) == []
    decreases |items|
  {
    if items != [] {
      BulletsCons(items);
      TextsAppend([Bullet(items[0])], Bullets(items[1..]), k);
      SingleTexts(Bullet(items[0]), k);
      BulletsHidden(items[1..], k);
    }
  }

  lemma BulletsCons(items: seq<string>)
    requires items != []
    ensures Bullets(items) == [Bullet(items[0])] + Bullets(items[1..])
  {
    assert Bullets(items)[1..] == Bullets(items[1..]);
  }

  /** A list section: its heading, then its items' bullets. */
  lemma SectionTexts(name: string, items: seq<string>, k: Kind)
    ensures Texts([Heading(name, 2)] + Bullets(items), k) == Of(Heading(name, 2), k) + (if k == BulletKind then items else [])
  {
    TextsAppend([Heading(name, 2)], Bullets(items), k);
    SingleTexts(Heading(name, 2), k);
    BulletTexts(items, k);
  }

  lemma ReadsBackFor(h: seq<Element>, s: seq<Element>, a: seq<Element>, d: seq<Element>, t: seq<Element>, k: Kind)
    ensures Texts(h + s + a + d + t, k) == Texts(h, k) + Texts(s, k) + Texts(a, k) + Texts(d, k) + Texts(t, k)
  {
    TextsAppend(h + s + a + d, t, k);
    TextsAppend(h + s + a, d, k);
    TextsAppend(h + s, a, k);
    TextsAppend(h, s, k);
  }

  /** The texts of one kind in a layout, part by part. */
  lemma LayoutTexts(title: string, summary: string, items: seq<string>, decisions: seq<string>, transcript: string, k: Kind)
    ensures Texts(Layout(title, summary, items, decisions, transcript), k) ==
      Of(Heading(title, 1), k)
      + (if !AllSpace(summary) then Of(Heading("Summary", 2), k) + Of(Paragraph(summary), k) else [])
      + (if items != [] then Of(Heading("Action Items", 2), k) + (if k == BulletKind then items else []) else [])
      + (if decisions != [] then Of(Heading("Key Decisions", 2), k) + (if k == BulletKind then decisions else []) else [])
      + (if !AllSpace(transcript) then Of(Heading("Full Transcript", 2), k) + Of(Paragraph(transcript), k) else [])
  {
    var h := [Heading(title, 1)];
    var s := if !AllSpace(summary) then [Heading("Summary", 2), Paragraph(summary)] else [];
    var a := if items != [] then [Heading("Action Items", 2)] + Bullets(items) else [];
    var d := if decisions != [] then [Heading("Key Decisions", 2)] + Bullets(decisions) else [];
    var t := if !AllSpace(transcript) then [Heading("Full Transcript", 2), Paragraph(transcript)] else [];
    ReadsBackFor(h, s, a, d, t, k);
    SingleTexts(Heading(title, 1), k);
    PairTexts(Heading("Summary", 2), Paragraph(summary), k);
    PairTexts(Heading("Full Transcript", 2), Paragraph(transcript), k);
    SectionTexts("Action Items", items, k);
    SectionTexts("Key Decisions", decisions, k);
  }

  /** What a reader of a successful report finds: the title as the only
      level-1 heading; the section headings in the fixed order Summary,
      Action Items, Key Decisions, Full Transcript, each exactly when its
      content is there, and at least one of them; one bullet per action
      item then per decision, in input order; and the summary and transcript
      as paragraphs, unstripped. */
  lemma ReportReadsBack(req: ReportRequest)
    requires ExportDocx(req).Ok?
    ensures var doc := ExportDocx(req).value;
      var summary := req.summary.GetOr("");
      var items := req.actionItems.GetOr([]);
      var decisions := req.keyDecisions.GetOr([]);
      var transcript := req.fullTranscript.GetOr("");
      && Texts(doc, TitleKind) == [TitleOf(req)]
      && Texts(doc, SectionKind) ==
           (if !AllSpace(summary) then ["Summary"] else [])
           + (if items != [] then ["Action Items"] else [])
           + (if decisions != [] then ["Key Decisions"] else [])
           + (if !AllSpace(transcript) then ["Full Transcript"] else [])
      && Texts(doc, SectionKind) != []
      && Texts(doc, BulletKind) == items + decisions
      && Texts(doc, ParagraphKind) ==
           (if !AllSpace(summary) then [summary] else []) + (if !AllSpace(transcript) then [transcript] else [])
  {
    var summary := req.summary.GetOr("");
    var items := req.actionItems.GetOr([]);
    var decisions := req.keyDecisions.GetOr([]);
    var transcript := req.fullTranscript.GetOr("");
    assert ExportDocx(req).value == Layout(TitleOf(req), summary, items, decisions, transcript);
    LayoutReadsBack(TitleOf(req), summary, items, decisions, transcript);
  }

  lemma LayoutReadsBack(title: string, summary: string, items: seq<string>, decisions: seq<string>, transcript: string)
    requires !AllSpace(summary) || items != [] || decisions != [] || !AllSpace(transcript)
    ensures var doc := Layout(title, summary, items, decisions, transcript);
      && Texts(doc, TitleKind) == [title]
      && Texts(doc, SectionKind) ==
           (if !AllSpace(summary) then ["Summary"] else [])
           + (if items != [] then ["Action Items"] else [])
           + (if decisions != [] then ["Key Decisions"] else [])
           + (if !AllSpace(transcript) then ["Full Transcript"] else [])
      && Texts(doc, SectionKind) != []
      && Texts(doc, BulletKind) == items + decisions
      && Texts(doc, ParagraphKind) ==
           (if !AllSpace(summary) then [summary] else []) + (if !AllSpace(transcript) then [transcript] else [])
  {
    LayoutTitle(title, summary, items, decisions, transcript);
    LayoutSections(title, summary, items, decisions, transcript);
    LayoutBullets(title, summary, items, decisions, transcript);
    LayoutParagraphs(title, summary, items, decisions, transcript);
  }

  lemma LayoutTitle(title: string, summary: string, items: seq<string>, decisions: seq<string>, transcript: string)
    ensures Texts(Layout(title, summary, items, decisions, transcript), TitleKind) == [title]
  {
    LayoutTexts(title, summary, items, decisions, transcript, TitleKind);
  }

  lemma LayoutSections(title: string, summary: string, items: seq<string>, decisions: seq<string>, transcript: string)
    ensures Texts(Layout(title, summary, items, decisions, transcript), SectionKind) ==
      (if !AllSpace(summary) then ["Summary"] else [])
      + (if items != [] then ["Action Items"] else [])
      + (if decisions != [] then ["Key Decisions"] else [])
      + (if !AllSpace(transcript) then ["Full Transcript"] else [])
  {
    LayoutTexts(title, summary, items, decisions, transcript, SectionKind);
    assert Of(Heading(title, 1), SectionKind) == [];
    assert Of(Paragraph(summary), SectionKind) == [] && Of(Paragraph(transcript), SectionKind) == [];
  }

  lemma LayoutBullets(title: string, summary: string, items: seq<string>, decisions: seq<string>, transcript: string)
    ensures Texts(Layout(title, summary, items, decisions, transcript), BulletKind) == items + decisions
  {
    LayoutTexts(title, summary, items, decisions, transcript, BulletKind);
  }

  lemma LayoutParagraphs(title: string, summary: string, items: seq<string>, decisions: seq<string>, transcript: string)
    ensures Texts(Layout(title, summary, items, decisions, transcript), ParagraphKind) ==
      (if !AllSpace(summary) then [summary] else []) + (if !AllSpace(transcript) then [transcript] else [])
  {
    LayoutTexts(title, summary, items, decisions, transcript, ParagraphKind);
  }

  // ------------------------------------------------- content under headings

  /** `doc` holds the section `name` with the elements `body`: a level-2
      heading, directly followed by `body`, then the end of the document or
      the next heading. */
  ghost predicate SectionBlock(doc: seq<Element>, name: string, body: seq<Element>) {
    exists i | 0 <= i && i + 1 + |body| <= |doc| ::
      && doc[i] == Heading(name, 2)
      && doc[i + 1..i + 1 + |body|] == body
      && (i + 1 + |body| == |doc| || doc[i + 1 + |body|].Heading?)
  }

  /** In a successful report each piece of content sits under its own
      heading: the summary paragraph right after "Summary", the action
      items' bullets right after "Action Items", the decisions' bullets
      right after "Key Decisions", the transcript paragraph right after
      "Full Transcript", and no other element between a section's content
      and the next section. */
  lemma ReportBlocks(req: ReportRequest)
    requires ExportDocx(req).Ok?
    ensures var doc := ExportDocx(req).value;
      var summary := req.summary.GetOr("");
      var items := req.actionItems.GetOr([]);
      var decisions := req.keyDecisions.GetOr([]);
      var transcript := req.fullTranscript.GetOr("");
      && (!AllSpace(summary) ==> SectionBlock(doc, "Summary", [Paragraph(summary)]))
      && (items != [] ==> SectionBlock(doc, "Action Items", Bullets(items)))
      && (decisions != [] ==> SectionBlock(doc, "Key Decisions", Bullets(decisions)))
      && (!AllSpace(transcript) ==> SectionBlock(doc, "Full Transcript", [Paragraph(transcript)]))
  {
    var summary := req.summary.GetOr("");
    var items := req.actionItems.GetOr([]);
    var decisions := req.keyDecisions.GetOr([]);
    var transcript := req.fullTranscript.GetOr("");
    assert ExportDocx(req).value == Layout(TitleOf(req), summary, items, decisions, transcript);
    LayoutBlocks(TitleOf(req), summary, items, decisions, transcript);
  }

  lemma LayoutBlocks(title: string, summary: string, items: seq<string>, decisions: seq<string>, transcript: string)
    ensures var doc := Layout(title, summary, items, decisions, transcript);
      && (!AllSpace(summary) ==> SectionBlock(doc, "Summary", [Paragraph(summary)]))
      && (items != [] ==> SectionBlock(doc, "Action Items", Bullets(items)))
      && (decisions != [] ==> SectionBlock(doc, "Key Decisions", Bullets(decisions)))
      && (!AllSpace(transcript) ==> SectionBlock(doc, "Full Transcript", [Paragraph(transcript)]))
  {
    var t := [Heading(title, 1)];
    var s := Section("Summary", !AllSpace(summary), [Paragraph(summary)]);
    var a := Section("Action Items", items != [], Bullets(items));
    var d := Section("Key Decisions", decisions != [], Bullets(decisions));
    var f := Section("Full Transcript", !AllSpace(transcript), [Paragraph(transcript)]);
    var doc := Layout(title, summary, items, decisions, transcript);
    LayoutBySections(title, summary, items, decisions, transcript);
    assert Led(a) && Led(d) && Led(f);
    LedConcat(d, f);
    LedConcat(a, d + f);
    Regroup(t, s, a, d, f);
    if !AllSpace(summary) {
      BlockIn(t, s, a + d + f, "Summary", [Paragraph(summary)]);
    }
    if items != [] {
      BlockIn(t + s, a, d + f, "Action Items", Bullets(items));
    }
    if decisions != [] {
      BlockIn(t + s + a, d, f, "Key Decisions", Bullets(decisions));
    }
    if !AllSpace(transcript) {
      BlockIn(t + s + a + d, f, [], "Full Transcript", [Paragraph(transcript)]);
    }
  }

  /** The groupings of the five parts used above. */
  lemma Regroup(t: seq<Element>, s: seq<Element>, a: seq<Element>, d: seq<Element>, f: seq<Element>)
    ensures t + s + a + d + f == t + s + (a + d + f)
    ensures t + s + a + d + f == (t + s) + a + (d + f)
    ensures t + s + a + d + f == (t + s + a + d) + f + []
  {
  }

  /** A level-2 heading followed by its content, or nothing when the
      content is absent. */
  function Section(name: string, present: bool, body: seq<Element>): seq<Element> {
    if present then [Heading(name, 2)] + body else []
  }

  /** The layout is the title heading followed by its four sections. */
  lemma LayoutBySections(title: string, summary: string, items: seq<string>, decisions: seq<string>, transcript: string)
    ensures Layout(title, summary, items, decisions, transcript) ==
      [Heading(title, 1)]
      + Section("Summary", !AllSpace(summary), [Paragraph(summary)])
      + Section("Action Items", items != [], Bullets(items))
      + Section("Key Decisions", decisions != [], Bullets(decisions))
      + Section("Full Transcript", !AllSpace(transcript), [Paragraph(transcript)])
  {
    assert [Heading("Summary", 2), Paragraph(summary)] == [Heading("Summary", 2)] + [Paragraph(summary)];
    assert [Heading("Full Transcript", 2), Paragraph(transcript)] == [Heading("Full Transcript", 2)] + [Paragraph(transcript)];
  }

  /** `x` is empty or opens with a heading. */
  predicate Led(x: seq<Element>) {
    x == [] || x[0].Heading?
  }

  lemma LedConcat(x: seq<Element>, y: seq<Element>)
    requires Led(x) && Led(y)
    ensures Led(x + y)
  {
    if x == [] {
      assert x + y == y;
    }
  }

  /** A section part placed between `pre` and a part that is empty or opens
      with a heading. */
  lemma BlockIn(pre: seq<Element>, part: seq<Element>, post: seq<Element>, name: string, body: seq<Element>)
    requires part == [Heading(name, 2)] + body
    requires Led(post)
    ensures SectionBlock(pre + part + post, name, body)
  {
    var doc := pre + part + post;
    var i := |pre|;
    assert doc[i] == Heading(name, 2);
    assert doc[i + 1..i + 1 + |body|] == body;
    assert i + 1 + |body| == |doc| || doc[i + 1 + |body|] == post[0];
  }
}

=== FILE: socket.dfy ===
/**
 * The live-audio intake of `meeting_socket`: a process-wide map from
 * Socket.IO session id to a FIFO queue of items, where an item is either a
 * decoded audio payload or the end-of-stream sentinel (`None`). The worker
 * thread, its event loop and the emitted acknowledgements are not modelled;
 * the handlers are pure functions over the map.
 */
module Socket {
  import opened Common
  import Meetings

  newtype byte = x: int | 0 <= x < 256

  /** A raw inbound message, or a payload once its header is removed. */
  type Frame = seq<byte>

  /** A queue item: `Some(payload)`, or `None` for the end-of-stream sentinel. */
  type Item = Option<Frame>

  /** `audio_queues`: session id to the queue's contents, oldest first. */
  type Queues = map<string, seq<Item>>

  /** Length of the metadata header in front of every audio frame. */
  const HeaderLen: nat := 5

  /** The frame decoder: a message longer than the header loses its header;
      a message of at most `HeaderLen` bytes carries no audio and is dropped. */
  function Decode(data: Frame): (r: Option<Frame>)
    ensures r.Some? <==> |data| > HeaderLen
    ensures r.Some? ==> |r.value| == |data| - HeaderLen && data == data[..HeaderLen] + r.value
  {
    if |data| > HeaderLen then Some(data[HeaderLen..]) else None
  }

  /** `start_streaming`, queue part: rebinds the session to a new empty
      queue; whatever an earlier start left queued is no longer reachable
      through the map. */
  function StartStreaming(q: Queues, sid: string): (r: Queues)
    ensures r.Keys == q.Keys + {sid}
    ensures r[sid] == []
    ensures forall t | t in q && t != sid :: r[t] == q[t]
  {
    q[sid := []]
  }

  /** `audio_data`: enqueues the decoded payload at the back of the
      session's queue; a frame for an unknown session, or one too short to
      decode, leaves every queue as it was. */
  function AudioData(q: Queues, sid: string, data: Frame): (r: Queues)
    ensures sid !in q || |data| <= HeaderLen ==> r == q
    ensures sid in q && |data| > HeaderLen ==>
      && r.Keys == q.Keys
      && r[sid] == q[sid] + [Some(data[HeaderLen..])]
      && forall t | t in q && t != sid :: r[t] == q[t]
  {
    match Decode(data)
    case Some(payload) => if sid in q then q[sid := q[sid] + [Some(payload)]] else q
    case None => q
  }

  /** `end_meeting`: appends exactly one sentinel to a known session's
      queue and is a no-op for an unknown one. */
  function EndMeeting(q: Queues, sid: string): (r: Queues)
    ensures sid !in q ==> r == q
    ensures sid in q ==>
      && r.Keys == q.Keys
      && r[sid] == q[sid] + [None]
      && forall t | t in q && t != sid :: r[t] == q[t]
  {
    if sid in q then q[sid := q[sid] + [None]] else q
  }

  /** `disconnect`: `audio_queues.pop(sid, None)`. Removes the session's
      entry if there is one and touches no other. */
  function Disconnect(q: Queues, sid: string): (r: Queues)
    ensures r.Keys == q.Keys - {sid}
    ensures forall t | t in r :: r[t] == q[t]
  {
    q - {sid}
  }

  // ----------------------------------------------------------- traces

  /** One socket event, each scoped to the session that sent it. */
  datatype Event =
    | Start(sid: string)
    | Audio(sid: string, data: Frame)
    | End(sid: string)
    | Leave(sid: string)

  function Step(q: Queues, e: Event): Queues {
    match e
    case Start(s) => StartStreaming(q, s)
    case Audio(s, d) => AudioData(q, s, d)
    case End(s) => EndMeeting(q, s)
    case Leave(s) => Disconnect(q, s)
  }

  /** The handlers applied in arrival order. */
  function Run(q: Queues, es: seq<Event>): Queues
    decreases |es|
  {
    if es == [] then q else Run(Step(q, es[0]), es[1..])
  }

  /** The items the events of `es` would enqueue for session `sid`, in
      order: a decodable frame contributes its payload, an end its
      sentinel, any other event nothing. */
  function Enqueued(sid: string, es: seq<Event>): seq<Item>
    decreases |es|
  {
    if es == [] then []
    else
      var head :=
        match es[0]
        case Audio(s, d) => if s == sid then (match Decode(d) case Some(p) => [Some(p)] case None => []) else []
        case End(s) => if s == sid then [None] else []
        case _ => [];
      head + Enqueued(sid, es[1..])
  }

  /** No event of `es` starts or disconnects session `sid`. */
  predicate Undisturbed(sid: string, es: seq<Event>) {
    forall i | 0 <= i < |es| :: !(es[i].Start? || es[i].Leave?) || es[i].sid != sid
  }

  /** FIFO: while a session is neither restarted nor disconnected, its queue
      grows by exactly the accepted payloads and sentinels, in call order;
      events of other sessions never reach it. */
  lemma {:induction false} QueueIsFifo(q: Queues, sid: string, es: seq<Event>)
    requires sid in q && Undisturbed(sid, es)
    ensures sid in Run(q, es)
    ensures Run(q, es)[sid] == q[sid] + Enqueued(sid, es)
    decreases |es|
  {
    if es != [] {
      var q' := Step(q, es[0]);
      RunCons(q, es);
      UndisturbedTail(sid, es);
      StepFifo(q, sid, es[0]);
      QueueIsFifo(q', sid, es[1..]);
      EnqueuedCons(sid, es);
      assert q[sid] + Enqueued(sid, [es[0]]) + Enqueued(sid, es[1..]) == q[sid] + (Enqueued(sid, [es[0]]) + Enqueued(sid, es[1..]));
    }
  }

  /** One event that neither starts nor disconnects `sid` appends what it
      enqueues for `sid`. */
  lemma StepFifo(q: Queues, sid: string, e: Event)
    requires sid in q && (!(e.Start? || e.Leave?) || e.sid != sid)
    ensures sid in Step(q, e) && Step(q, e)[sid] == q[sid] + Enqueued(sid, [e])
  {
    assert [e][1..] == [];
  }

  lemma RunCons(q: Queues, es: seq<Event>)
    requires es != []
    ensures Run(q, es) == Run(Step(q, es[0]), es[1..])
  {
  }

  lemma UndisturbedTail(sid: string, es: seq<Event>)
    requires es != [] && Undisturbed(sid, es)
    ensures !(es[0].Start? || es[0].Leave?) || es[0].sid != sid
    ensures Undisturbed(sid, es[1..])
  {
    forall i | 0 <= i < |es[1..]| ensures !(es[1..][i].Start? || es[1..][i].Leave?) || es[1..][i].sid != sid {
      assert es[1..][i] == es[i + 1];
    }
  }

  lemma EnqueuedCons(sid: string, es: seq<Event>)
    requires es != []
    ensures Enqueued(sid, es) == Enqueued(sid, [es[0]]) + Enqueued(sid, es[1..])
  {
    assert [es[0]][1..] == [];
    assert [es[0]][0] == es[0];
  }

  /** A trace that starts a session and then only streams to it leaves the
      queue holding exactly what was enqueued after the start. */
  lemma StartedQueueHoldsTrace(q: Queues, sid: string, es: seq<Event>)
    requires Undisturbed(sid, es)
    ensures sid in Run(q, [Start(sid)] + es)
    ensures Run(q, [Start(sid)] + es)[sid] == Enqueued(sid, es)
  {
    assert ([Start(sid)] + es)[1..] == es;
    QueueIsFifo(StartStreaming(q, sid), sid, es);
  }

  /** Nothing checks for the sentinel: a frame arriving after `end_meeting`
      is still appended behind it. */
  lemma FrameAfterEndIsQueued(q: Queues, sid: string, data: Frame)
    requires sid in q && |data| > HeaderLen
    ensures AudioData(EndMeeting(q, sid), sid, data)[sid] == q[sid] + [None, Some(data[HeaderLen..])]
  {
  }

  /** A second `start_streaming` is not idempotent at map level: the
      session's entry goes from a non-empty queue to an empty one. */
  lemma RestartDropsPending(q: Queues, sid: string)
    requires sid in q && q[sid] != []
    ensures StartStreaming(StartStreaming(q, sid), sid) == StartStreaming(q, sid)
    ensures StartStreaming(q, sid)[sid] != q[sid]
  {
  }

  /** No handler other than `start_streaming` creates an entry, so audio
      and end events for unknown sessions never register one. */
  lemma {:induction false} OnlyStartRegisters(q: Queues, es: seq<Event>, sid: string)
    requires sid !in q
    requires forall i | 0 <= i < |es| :: !es[i].Start? || es[i].sid != sid
    ensures sid !in Run(q, es)
    decreases |es|
  {
    if es != [] {
      assert forall i | 0 <= i < |es[1..]| :: !es[1..][i].Start? || es[1..][i].sid != sid by {
        forall i | 0 <= i < |es[1..]| ensures !es[1..][i].Start? || es[1..][i].sid != sid {
          assert es[1..][i] == es[i + 1];
        }
      }
      OnlyStartRegisters(Step(q, es[0]), es[1..], sid);
    }
  }

  // ------------------------------------------------- start with the store

  /** The queues together with the meeting store they feed. */
  datatype Server = Server(queues: Queues, db: Meetings.Db)

  /** The user id a connection supplies: `request.args.get('user_id', 'default_user')`. */
  function ConnectionUser(userArg: Option<string>): string {
    userArg.GetOr("default_user")
  }

  /** `start_streaming`: get-or-create the meeting record for the session,
      then bind a fresh queue. A client that starts twice keeps one record
      (its first user id wins), and the map entry of its queue starts over
      empty. */
  function OnStartStreaming(s: Server, sid: string, userArg: Option<string>, now: int): (r: Server)
    ensures r.queues == StartStreaming(s.queues, sid)
    ensures sid in r.db.meetings
    ensures sid in s.db.meetings ==> r.db == s.db
    ensures r.db.chunks == s.db.chunks
    ensures r.db.meetings.Keys == s.db.meetings.Keys + {sid}
    ensures forall k | k in s.db.meetings :: r.db.meetings[k] == s.db.meetings[k]
    ensures sid !in s.db.meetings ==>
      var m := r.db.meetings[sid];
      && m.sid == sid && m.userId == ConnectionUser(userArg) && m.createdAt == now
      && m.title == "Untitled Meeting" && m.status.Name() == "in_progress"
      && m.endedAt.None? && m.fullTranscript.None? && m.summary.None?
      && m.actionItems == [] && m.keyDecisions == []
    ensures Meetings.Valid(s.db) ==> Meetings.Valid(r.db)
  {
    var (db', _) := Meetings.GetOrCreate(s.db, sid, ConnectionUser(userArg), now);
    Server(StartStreaming(s.queues, sid), db')
  }

  /** Starting twice leaves the same store as starting once. */
  lemma StartTwiceKeepsOneRecord(s: Server, sid: string, u1: Option<string>, u2: Option<string>, t1: int, t2: int)
    ensures OnStartStreaming(OnStartStreaming(s, sid, u1, t1), sid, u2, t2).db == OnStartStreaming(s, sid, u1, t1).db
  {
  }
}

=== FILE: summarize.dfy ===
/**
 * The two summarize routes: by session id, from the fragments the
 * transcription worker collected, and from a posted transcript. Both call
 * the summarizer only for a non-empty transcript and fill in defaults for
 * the keys its reply lacks.
 */
module Summarize {
  import opened Common
  import opened Text
  import opened Reply

  /** The JSON body of a successful summarize response. */
  datatype SummaryResponse = SummaryResponse(
    summary: string,
    actionItems: seq<string>,
    keyDecisions: seq<string>,
    fullTranscript: string)

  /** The summarizer as the routes see it: the chat model and the JSON
      parser around the fence clean-up. */
  datatype Summarizer = Summarizer(complete: string -> string, parse: string -> SummaryData)

  function Run(f: Summarizer, transcript: string): SummaryData {
    SummarizeTranscript(transcript, f.complete, f.parse)
  }

  /** The response body for a summarizer result: a missing summary becomes
      "" and a missing list becomes []. */
  function Shape(data: SummaryData, transcript: string): (r: SummaryResponse)
    ensures data.summary.Some? ==> r.summary == data.summary.value
    ensures data.summary.None? ==> r.summary == ""
    ensures data.actionItems.Some? ==> r.actionItems == data.actionItems.value
    ensures data.actionItems.None? ==> r.actionItems == []
    ensures data.keyDecisions.Some? ==> r.keyDecisions == data.keyDecisions.value
    ensures data.keyDecisions.None? ==> r.keyDecisions == []
    ensures r.fullTranscript == transcript
  {
    SummaryResponse(data.summary.GetOr(""), data.actionItems.GetOr([]), data.keyDecisions.GetOr([]), transcript)
  }

  /** The fragments the worker collected for `sid`; none for an unknown sid. */
  function Fragments(sessions: map<string, seq<string>>, sid: string): seq<string> {
    if sid in sessions then sessions[sid] else []
  }

  /** `GET /summarize/<sid>`: the fragments joined by newlines are
      summarized; an empty join is refused with 400. */
  function SummarizeSid(sessions: map<string, seq<string>>, sid: string, f: Summarizer): (r: Outcome<SummaryResponse>)
    ensures var frags := Fragments(sessions, sid);
      r.Fail? <==> frags == [] || frags == [""]
    ensures r.Fail? ==> r == Fail(StatusBadRequest, "No transcript")
    ensures r.Ok? ==>
      var t := Join("\n", Fragments(sessions, sid));
      r == Ok(StatusOk, Shape(Run(f, t), t)) && t != ""
  {
    var transcript := Join("\n", Fragments(sessions, sid));
    JoinIsEmpty("\n", Fragments(sessions, sid));
    if transcript == "" then Fail(StatusBadRequest, "No transcript")
    else Ok(StatusOk, Shape(Run(f, transcript), transcript))
  }

  /** A refused request never depends on the summarizer: it is not called. */
  lemma SidRefusalIgnoresSummarizer(sessions: map<string, seq<string>>, sid: string, f: Summarizer, g: Summarizer)
    requires SummarizeSid(sessions, sid, f).Fail?
    ensures SummarizeSid(sessions, sid, g) == SummarizeSid(sessions, sid, f)
  {
  }

  /** The echoed transcript gives back the collected fragments when none
      of them contains a newline. */
  lemma {:induction false} SidTranscriptSplitsBack(sessions: map<string, seq<string>>, sid: string, f: Summarizer)
    requires SummarizeSid(sessions, sid, f).Ok?
    requires forall i | 0 <= i < |Fragments(sessions, sid)| :: !Mentions(Fragments(sessions, sid)[i], '\n')
    ensures Split(SummarizeSid(sessions, sid, f).value.fullTranscript, "\n") == Fragments(sessions, sid)
  {
    var parts := Fragments(sessions, sid);
    forall i | 0 <= i < |parts| ensures SeparatorFree(parts[i], "\n") {
      MentionFreeIsSeparatorFree(parts[i], "\n");
    }
    SplitJoin("\n", parts);
  }

  /** `POST /summarize`: the posted transcript (absent counts as "") is
      stripped; a blank one is refused with 400, otherwise the stripped
      text is summarized and echoed. */
  function SummarizePost(transcript: Option<string>, f: Summarizer): (r: Outcome<SummaryResponse>)
    ensures r.Fail? <==> AllSpace(transcript.GetOr(""))
    ensures r.Fail? ==> r == Fail(StatusBadRequest, "No transcript")
    ensures r.Ok? ==>
      && r.code == StatusOk
      && Trimmed(r.value.fullTranscript) && r.value.fullTranscript != ""
      && r.value == Shape(Run(f, r.value.fullTranscript), r.value.fullTranscript)
  {
    var t := Strip(transcript.GetOr(""));
    StripEmpty(transcript.GetOr(""));
    if t == "" then Fail(StatusBadRequest, "No transcript")
    else Ok(StatusOk, Shape(Run(f, t), t))
  }

  /** Surrounding whitespace in the posted transcript changes nothing: the
      summarizer sees, and the response echoes, the text between it. */
  lemma PostIgnoresPadding(pre: string, body: string, post: string, f: Summarizer)
    requires AllSpace(pre) && AllSpace(post) && Trimmed(body) && body != ""
    ensures SummarizePost(Some(pre + body + post), f) == SummarizePost(Some(body), f)
    ensures SummarizePost(Some(body), f).Ok? && SummarizePost(Some(body), f).value.fullTranscript == body
  {
    var s := pre + body + post;
    assert s[..|pre|] == pre && s[|pre| + |body|..] == post && s[|pre|..|pre| + |body|] == body;
    StripIsMiddle(s, |pre|, |pre| + |body|);
    StripTrimmed(body);
  }

  /** A posted refusal never depends on the summarizer either. */
  lemma PostRefusalIgnoresSummarizer(transcript: Option<string>, f: Summarizer, g: Summarizer)
    requires SummarizePost(transcript, f).Fail?
    ensures SummarizePost(transcript, g) == SummarizePost(transcript, f)
  {
  }
}

=== FILE: text.dfy ===
/**
 * The Python string operations the backend relies on, over `string`:
 * `str.strip()`, `sep.join(parts)`, `str.split(sep)`, `str.startswith` and
 * `str.replace`.
 */
module Text {

  /** Python's whitespace for `str.strip()` (the `Py_UNICODE_ISSPACE` code points). */
  predicate IsSpace(c: char) {
    var n := c as int;
    || (9 <= n <= 13)
    || (28 <= n <= 32)
    || n == 0x85
    || n == 0xA0
    || n == 0x1680
    || (0x2000 <= n <= 0x200A)
    || n == 0x2028
    || n == 0x2029
    || n == 0x202F
    || n == 0x205F
    || n == 0x3000
  }

  predicate AllSpace(s: string) {
    forall i | 0 <= i < |s| :: IsSpace(s[i])
  }

  /** Neither end of `s` is whitespace. */
  predicate Trimmed(s: string) {
    s == [] || (!IsSpace(s[0]) && !IsSpace(s[|s| - 1]))
  }

  /** `s.lstrip()`: drops the leading whitespace. */
  function TrimStart(s: string): string
  {
    if |s| > 0 && IsSpace(s[0]) then TrimStart(s[1..]) else s
  }

  /** `s.rstrip()`: drops the trailing whitespace. */
  function TrimEnd(s: string): string
  {
    if |s| > 0 && IsSpace(s[|s| - 1]) then TrimEnd(s[..|s| - 1]) else s
  }

  /** `lstrip` keeps a suffix, drops only whitespace, and leaves a string
      that does not start with whitespace. */
  lemma {:induction false} TrimStartFacts(s: string)
    ensures var r := TrimStart(s);
      && |r| <= |s| && r == s[|s| - |r|..]
      && AllSpace(s[..|s| - |r|])
      && (r == [] || !IsSpace(r[0]))
  {
    if |s| > 0 && IsSpace(s[0]) {
      TrimStartFacts(s[1..]);
      var r := TrimStart(s[1..]);
      assert s[..|s| - |r|] == [s[0]] + s[1..][..|s| - 1 - |r|];
    }
  }

  /** `rstrip` keeps a prefix, drops only whitespace, and leaves a string
      that does not end with whitespace. */
  lemma {:induction false} TrimEndFacts(s: string)
    ensures var r := TrimEnd(s);
      && |r| <= |s| && r == s[..|r|]
      && AllSpace(s[|r|..])
      && (r == [] || !IsSpace(r[|r| - 1]))
  {
    if |s| > 0 && IsSpace(s[|s| - 1]) {
      TrimEndFacts(s[..|s| - 1]);
      var r := TrimEnd(s[..|s| - 1]);
      assert s[|r|..] == s[..|s| - 1][|r|..] + [s[|s| - 1]];
    }
  }

  /** `s.strip()`. */
  function Strip(s: string): (r: string)
    ensures Trimmed(r)
    ensures |r| <= |s|
  {
    TrimStartFacts(s);
    TrimEndFacts(TrimStart(s));
    TrimEnd(TrimStart(s))
  }

  /** `strip()` empties exactly the blank strings. */
  lemma StripEmpty(s: string)
    ensures Strip(s) == [] <==> AllSpace(s)
  {
    var t := TrimStart(s);
    TrimStartFacts(s);
    TrimEndFacts(t);
    if Strip(s) == [] {
      assert s == s[..|s| - |t|] + t;
      AllSpaceConcat(s[..|s| - |t|], t);
    }
  }

  /** Whatever `i, j` cut `s` into blank prefix, trimmed middle and blank
      suffix, `Strip` returns exactly that middle. */
  lemma StripIsMiddle(s: string, i: nat, j: nat)
    requires i <= j <= |s|
    requires AllSpace(s[..i]) && AllSpace(s[j..]) && Trimmed(s[i..j])
    ensures Strip(s) == s[i..j]
  {
    if i == j {
      assert s == s[..i] + s[j..];
      AllSpaceConcat(s[..i], s[j..]);
      StripEmpty(s);
    } else {
      StripNonBlank(s, i, j);
    }
  }

  lemma StripNonBlank(s: string, i: nat, j: nat)
    requires i < j <= |s|
    requires AllSpace(s[..i]) && AllSpace(s[j..])
    requires !IsSpace(s[i]) && !IsSpace(s[j - 1])
    ensures Strip(s) == s[i..j]
  {
    TrimStartAt(s, i);
    var t := s[i..];
    assert t[j - i..] == s[j..];
    TrimEndAt(t, j - i);
  }

  lemma AllSpaceConcat(a: string, b: string)
    requires AllSpace(a) && AllSpace(b)
    ensures AllSpace(a + b)
  {
    forall k | 0 <= k < |a + b| ensures IsSpace((a + b)[k]) {
      if k < |a| { assert (a + b)[k] == a[k]; } else { assert (a + b)[k] == b[k - |a|]; }
    }
  }

  lemma {:induction false} TrimStartAt(s: string, i: nat)
    requires i < |s| && AllSpace(s[..i]) && !IsSpace(s[i])
    ensures TrimStart(s) == s[i..]
    decreases i
  {
    if i > 0 {
      assert IsSpace(s[..i][0]);
      assert s[1..][..i - 1] == s[1..i];
      TrimStartAt(s[1..], i - 1);
      assert s[1..][i - 1..] == s[i..];
    }
  }

  lemma {:induction false} TrimEndAt(s: string, j: nat)
    requires 0 < j <= |s| && AllSpace(s[j..]) && !IsSpace(s[j - 1])
    ensures TrimEnd(s) == s[..j]
    decreases |s| - j
  {
    if j < |s| {
      assert IsSpace(s[j..][|s| - 1 - j]);
      var s' := s[..|s| - 1];
      assert s'[j..] == s[j..|s| - 1];
      TrimEndAt(s', j);
      assert s'[..j] == s[..j];
    }
  }

  /** Stripping twice is stripping once. */
  lemma StripIdempotent(s: string)
    ensures Strip(Strip(s)) == Strip(s)
  {
    var r := Strip(s);
    assert r[..0] == [] && r[|r|..] == [] && r[0..|r|] == r;
    StripIsMiddle(r, 0, |r|);
  }

  /** A string with no outer whitespace is its own strip. */
  lemma StripTrimmed(s: string)
    requires Trimmed(s)
    ensures Strip(s) == s
  {
    assert s[..0] == [] && s[|s|..] == [] && s[0..|s|] == s;
    StripIsMiddle(s, 0, |s|);
  }

  // ---------------------------------------------------------------- join

  /** `sep.join(parts)`. */
  function Join(sep: string, parts: seq<string>): string
    decreases |parts|
  {
    if |parts| == 0 then ""
    else if |parts| == 1 then parts[0]
    else parts[0] + sep + Join(sep, parts[1..])
  }

  /** Joining one more part appends the separator and that part. */
  lemma {:induction false} JoinSnoc(sep: string, parts: seq<string>, last: string)
    requires |parts| > 0
    ensures Join(sep, parts + [last]) == Join(sep, parts) + sep + last
    decreases |parts|
  {
    if |parts| > 1 {
      assert (parts + [last])[1..] == parts[1..] + [last];
      JoinSnoc(sep, parts[1..], last);
    } else {
      assert (parts + [last])[1..] == [last];
    }
  }

  /** With a non-empty separator the join is empty exactly when there is
      nothing to join or the only part is empty. */
  lemma JoinIsEmpty(sep: string, parts: seq<string>)
    requires sep != ""
    ensures Join(sep, parts) == "" <==> (|parts| == 0 || (|parts| == 1 && parts[0] == ""))
  {
    if |parts| > 1 {
      assert |Join(sep, parts)| >= |sep|;
    }
  }

  // --------------------------------------------------------------- split

  /** `c` occurs in `s`. */
  predicate Mentions(s: string, c: char) {
    exists k | 0 <= k < |s| :: s[k] == c
  }

  /** `s.split(sep)` for a non-empty separator: leftmost, non-overlapping. */
  function Split(s: string, sep: string): (r: seq<string>)
    requires sep != ""
    ensures |r| > 0
    decreases |s|
  {
    if |s| < |sep| then [s]
    else if s[..|sep|] == sep then [""] + Split(s[|sep|..], sep)
    else
      var rest := Split(s[1..], sep);
      [[s[0]] + rest[0]] + rest[1..]
  }

  /** No occurrence of `sep` starts inside `p`, not even one that runs on
      into a separator written after it: `p` is split off whole when a
      separator follows. */
  predicate SeparatorFree(p: string, sep: string) {
    forall k | 0 <= k < |p| :: !OccursAt(p + sep, sep, k)
  }

  /** A part without the separator's first character is separator-free. */
  lemma MentionFreeIsSeparatorFree(p: string, sep: string)
    requires sep != "" && !Mentions(p, sep[0])
    ensures SeparatorFree(p, sep)
  {
    forall k | 0 <= k < |p| ensures !OccursAt(p + sep, sep, k) {
      if k <= |p + sep| - |sep| {
        assert (p + sep)[k..k + |sep|][0] == p[k];
      }
    }
  }

  /** For the blank-line separator: a part with no blank line that does not
      end with a line break is separator-free. */
  lemma BlankLineFree(p: string)
    requires !Contains(p, "\n\n") && (p == [] || p[|p| - 1] != '\n')
    ensures SeparatorFree(p, "\n\n")
  {
    var sep := "\n\n";
    forall k | 0 <= k < |p| ensures !OccursAt(p + sep, sep, k) {
      if OccursAt(p + sep, sep, k) {
        assert (p + sep)[k] == '\n' && (p + sep)[k + 1] == '\n' by {
          assert (p + sep)[k..k + 2][0] == (p + sep)[k] && (p + sep)[k..k + 2][1] == (p + sep)[k + 1];
        }
        if k + 1 < |p| {
          assert p[k..k + 2] == sep;
          assert OccursAt(p, sep, k);
        }
        assert false;
      }
    }
  }

  /** Dropping the first character keeps a part separator-free. */
  lemma SeparatorFreeTail(p: string, sep: string)
    requires p != [] && SeparatorFree(p, sep)
    ensures SeparatorFree(p[1..], sep)
  {
    assert p[1..] + sep == (p + sep)[1..];
    forall k | 0 <= k < |p[1..]| ensures !OccursAt(p[1..] + sep, sep, k) {
      assert !OccursAt(p + sep, sep, k + 1);
      if k <= |p[1..] + sep| - |sep| {
        assert (p[1..] + sep)[k..k + |sep|] == (p + sep)[k + 1..k + 1 + |sep|];
      }
    }
  }

  /** A separator-free part followed by the separator is split off as the
      first piece. */
  lemma {:induction false} SplitFirst(p: string, sep: string, rest: string)
    requires sep != ""
    requires SeparatorFree(p, sep)
    ensures Split(p + sep + rest, sep) == [p] + Split(rest, sep)
    decreases |p|
  {
    var s := p + sep + rest;
    if p == [] {
      assert s == sep + rest;
      assert s[..|sep|] == sep && s[|sep|..] == rest;
    } else {
      assert s[..|sep|] != sep by {
        assert !OccursAt(p + sep, sep, 0);
        assert s[..|sep|] == (p + sep)[0..|sep|];
      }
      SeparatorFreeTail(p, sep);
      assert s[1..] == p[1..] + sep + rest;
      SplitFirst(p[1..], sep, rest);
      assert [s[0]] + p[1..] == p;
    }
  }

  /** A separator-free part stays whole under `Split`. */
  lemma {:induction false} SplitWhole(p: string, sep: string)
    requires sep != ""
    requires SeparatorFree(p, sep)
    ensures Split(p, sep) == [p]
    decreases |p|
  {
    if |p| >= |sep| {
      assert p[..|sep|] != sep by {
        assert !OccursAt(p + sep, sep, 0);
        assert p[..|sep|] == (p + sep)[0..|sep|];
      }
      SeparatorFreeTail(p, sep);
      SplitWhole(p[1..], sep);
      assert [p[0]] + p[1..] == p;
    }
  }

  /** `Split` undoes `Join` when every part is separator-free: the joined
      parts can be recovered one by one. */
  lemma {:induction false} SplitJoin(sep: string, parts: seq<string>)
    requires sep != "" && |parts| > 0
    requires forall i | 0 <= i < |parts| :: SeparatorFree(parts[i], sep)
    ensures Split(Join(sep, parts), sep) == parts
    decreases |parts|
  {
    if |parts| == 1 {
      SplitWhole(parts[0], sep);
    } else {
      SplitJoin(sep, parts[1..]);
      SplitFirst(parts[0], sep, Join(sep, parts[1..]));
      assert [parts[0]] + parts[1..] == parts;
    }
  }

  // ------------------------------------------------- prefix and replace

  /** `s.startswith(p)`. */
  predicate StartsWith(s: string, p: string) {
    |p| <= |s| && s[..|p|] == p
  }

  /** `pat` occurs somewhere in `s`. */
  predicate Contains(s: string, pat: string) {
    exists k | 0 <= k <= |s| - |pat| :: OccursAt(s, pat, k)
  }

  /** `pat` occurs in `s` starting at index `k`. */
  predicate OccursAt(s: string, pat: string, k: int) {
    0 <= k <= |s| - |pat| && s[k..k + |pat|] == pat
  }

  /** `s.replace(pat, rep)` for a non-empty pattern: every leftmost,
      non-overlapping occurrence of `pat` is replaced by `rep`. */
  function Replace(s: string, pat: string, rep: string): string
    requires pat != ""
    decreases |s|
  {
    if |s| < |pat| then s
    else if s[..|pat|] == pat then rep + Replace(s[|pat|..], pat, rep)
    else [s[0]] + Replace(s[1..], pat, rep)
  }

  /** Replacing a pattern that does not occur changes nothing. */
  lemma {:induction false} ReplaceAbsent(s: string, pat: string, rep: string)
    requires pat != "" && !Contains(s, pat)
    ensures Replace(s, pat, rep) == s
    decreases |s|
  {
    if |s| >= |pat| {
      assert !OccursAt(s, pat, 0);
      assert s[0..|pat|] == s[..|pat|];
      assert !Contains(s[1..], pat) by {
        forall k | 0 <= k <= |s[1..]| - |pat| ensures !OccursAt(s[1..], pat, k) {
          assert s[1..][k..k + |pat|] == s[k + 1..k + 1 + |pat|];
          assert !OccursAt(s, pat, k + 1);
        }
      }
      ReplaceAbsent(s[1..], pat, rep);
      assert [s[0]] + s[1..] == s;
    }
  }

  /** `Replace` distributes over a prefix that holds a whole occurrence. */
  lemma ReplaceLeading(pat: string, rest: string, rep: string)
    requires pat != ""
    ensures Replace(pat + rest, pat, rep) == rep + Replace(rest, pat, rep)
  {
    assert (pat + rest)[..|pat|] == pat;
    assert (pat + rest)[|pat|..] == rest;
  }

  /** A character other than the pattern's first is copied through. */
  lemma ReplaceSkipsHead(c: char, tail: string, pat: string, rep: string)
    requires pat != "" && c != pat[0]
    ensures Replace([c] + tail, pat, rep) == [c] + Replace(tail, pat, rep)
  {
    var s := [c] + tail;
    if |s| >= |pat| {
      assert s[..|pat|] != pat by { assert s[..|pat|][0] == c; }
    }
    assert s[1..] == tail;
  }

  /** A suffix mentions no character its string does not. */
  lemma MentionsTail(x: string, c: char)
    requires x != [] && !Mentions(x, c)
    ensures x[0] != c && !Mentions(x[1..], c)
  {
    forall k | 0 <= k < |x[1..]| ensures x[1..][k] != c {
      assert x[1..][k] == x[k + 1];
    }
  }

  /** A string without the pattern's first character, followed by a tail
      shorter than the pattern, holds no occurrence. */
  lemma {:induction false} ReplaceMissesShortTail(x: string, t: string, pat: string, rep: string)
    requires pat != "" && !Mentions(x, pat[0]) && |t| < |pat|
    ensures Replace(x + t, pat, rep) == x + t
    decreases |x|
  {
    if x == [] {
      assert x + t == t;
    } else {
      MentionsTail(x, pat[0]);
      assert x + t == [x[0]] + (x[1..] + t);
      ReplaceSkipsHead(x[0], x[1..] + t, pat, rep);
      ReplaceMissesShortTail(x[1..], t, pat, rep);
    }
  }

  /** Up to and including the first occurrence, `Replace` copies the text
      before it and substitutes the occurrence. */
  lemma {:induction false} ReplaceFirst(x: string, pat: string, rest: string, rep: string)
    requires pat != "" && !Mentions(x, pat[0])
    ensures Replace(x + pat + rest, pat, rep) == x + rep + Replace(rest, pat, rep)
    decreases |x|
  {
    if x == [] {
      assert x + pat + rest == pat + rest;
      ReplaceLeading(pat, rest, rep);
    } else {
      var c, t := x[0], x[1..];
      var tail := Replace(rest, pat, rep);
      MentionsTail(x, pat[0]);
      ReplaceFirst(t, pat, rest, rep);
      assert x + pat + rest == [c] + (t + pat + rest) by { assert x == [c] + t; }
      ReplaceSkipsHead(c, t + pat + rest, pat, rep);
      assert x + rep + tail == [c] + (t + rep + tail) by { assert x == [c] + t; }
    }
  }
}

=== FILE: users.dfy ===
/**
 * User accounts: creation refuses a name or an email that is already
 * taken, and stores only the hashed password. The salted hash function and
 * the id generator are parameters.
 */
module Users {
  import opened Common

  datatype User = User(name: string, email: string, passwordHash: string, createdAt: int)

  type UserDb = map<string, User>

  /** The success body of `create_user`. */
  datatype Created = Created(id: string, name: string)

  /** The body of `get_user`: the password never leaves the store. */
  datatype UserView = UserView(id: string, name: string, email: string, createdAt: int)

  predicate NameTaken(db: UserDb, name: string) {
    exists id | id in db :: db[id].name == name
  }

  predicate EmailTaken(db: UserDb, email: string) {
    exists id | id in db :: db[id].email == email
  }

  /** No two accounts share a name or an email. */
  predicate Distinct(db: UserDb) {
    forall a, b | a in db && b in db && a != b :: db[a].name != db[b].name && db[a].email != db[b].email
  }

  /** `create_user`: a taken name is reported first, then a taken email;
      either leaves the store as it was. Otherwise exactly one account is
      added under the fresh id `newId`, holding `hash(password)`. */
  function CreateUser(db: UserDb, name: string, email: string, password: string,
                      newId: string, hash: string -> string, now: int): (r: (UserDb, Outcome<Created>))
    requires newId !in db
    ensures NameTaken(db, name) ==> r == (db, Fail(StatusBadRequest, "Username already exists"))
    ensures !NameTaken(db, name) && EmailTaken(db, email) ==> r == (db, Fail(StatusBadRequest, "Email already exists"))
    ensures !NameTaken(db, name) && !EmailTaken(db, email) ==>
      && r.1 == Ok(StatusCreated, Created(newId, name))
      && r.0.Keys == db.Keys + {newId}
      && (forall id | id in db :: r.0[id] == db[id])
      && r.0[newId].name == name && r.0[newId].email == email
      && r.0[newId].passwordHash == hash(password) && r.0[newId].createdAt == now
    ensures Distinct(db) ==> Distinct(r.0)
  {
    if NameTaken(db, name) then (db, Fail(StatusBadRequest, "Username already exists"))
    else if EmailTaken(db, email) then (db, Fail(StatusBadRequest, "Email already exists"))
    else
      var db' := db[newId := User(name, email, hash(password), now)];
      assert Distinct(db) ==> Distinct(db') by {
        if Distinct(db) {
          forall a, b | a in db' && b in db' && a != b ensures db'[a].name != db'[b].name && db'[a].email != db'[b].email {
            if a == newId {
              assert db'[b] == db[b];
            } else if b == newId {
              assert db'[a] == db[a];
            }
          }
        }
      }
      (db', Ok(StatusCreated, Created(newId, name)))
  }

  /** `get_user`: 404 for an unknown id, otherwise the account's public
      fields. */
  function GetUser(db: UserDb, id: string): (r: Outcome<UserView>)
    ensures id !in db <==> r == Fail(StatusNotFound, "User not found")
    ensures id in db ==> r == Ok(StatusOk, UserView(id, db[id].name, db[id].email, db[id].createdAt))
  {
    if id !in db then Fail(StatusNotFound, "User not found")
    else Ok(StatusOk, UserView(id, db[id].name, db[id].email, db[id].createdAt))
  }

  /** An account that was just created can be fetched by the id returned,
      and shows the name and email it was created with. */
  lemma CreateThenGet(db: UserDb, name: string, email: string, password: string,
                      newId: string, hash: string -> string, now: int)
    requires newId !in db
    requires CreateUser(db, name, email, password, newId, hash, now).1.Ok?
    ensures var (db', created) := CreateUser(db, name, email, password, newId, hash, now);
      GetUser(db', created.value.id) == Ok(StatusOk, UserView(newId, name, email, now))
  {
  }

  /** After a successful creation the name and the email are taken, so
      the same request a second time is refused by name. */
  lemma CreateTwiceRefused(db: UserDb, name: string, email: string, password: string,
                           id1: string, id2: string, hash: string -> string, t1: int, t2: int)
    requires id1 !in db && id2 !in db && id1 != id2
    requires CreateUser(db, name, email, password, id1, hash, t1).1.Ok?
    ensures var db' := CreateUser(db, name, email, password, id1, hash, t1).0;
      CreateUser(db', name, email, password, id2, hash, t2) == (db', Fail(StatusBadRequest, "Username already exists"))
  {
    var db' := CreateUser(db, name, email, password, id1, hash, t1).0;
    assert db'[id1].name == name;
  }
}
